=== FILE: README.md ===
# Student registry: a Dafny model

This project models the core of a student-registry application in Dafny and proves
properties of the model. The backend is a Spring service over a student table and an
admin table; the client is an Angular single-page app. Nothing here runs the application.

**Backend**

- The student table is a map from id to (username, level) with an id allocator
  (`StudentRepository`). Its repository is a class whose methods update that map in place.
- The entity, the request body and its two validation constraints are in `StudentEntity`.
  `StudentMapper` converts between them; its update overwrites the entity in place.
- The student service is written twice (`StudentService`):
  - once as functions of the table, which say what each operation does, with the
    invariant that usernames stay unique;
  - once as a class whose methods carry the operations out through the repository and
    are proved equal to those functions.
- The controller is a set of pure functions (`StudentController`). It covers:
  - the request-parameter defaults and the integer conversion of `page` and `size`;
  - the sort-direction parser;
  - bean validation before create and update;
  - the status code each handler answers with.
- Admin registration and login are in `AdminAuth`. The password encoder and the token
  generator are parameters, so every property holds whatever they compute.
- The search query's `LIKE` pattern is modelled as written (`SqlLike`), next to the
  substring search it is meant to be (see Findings).

**Client**

- The session service (`ClientAuth`) keeps local storage, the authenticated flag and the
  current user.
- The JWT interceptor is `JwtInterceptor`.
- The student HTTP service is `StudentClient`. It covers the query-parameter builder and
  each operation's verb, URL and body.
- Five views are modelled as classes whose fields are the component's state: the list,
  edit, create, detail and login views. A remote call is split in two:
  - the method that sends it returns the call it makes;
  - a completion method receives the outcome, success with a value or failure with a
    status and body.
- `Text` holds the string and number helpers: JavaScript `trim`, ASCII case folding,
  decimal printing and parsing.

## Model

| member | source | states |
|---|---|---|
| StudentEntity.Student.constructor | backend/src/main/java/com/ars/backend/entity/Student.java:17-26 | the entity holds an optional generated id, a username and a level, as given |
| StudentEntity.Violations | backend/src/main/java/com/ars/backend/dto/StudentRequest.java:7-12 | `level` is violated iff it is null; `username` is violated iff it is null or blank (every char <= U+0020); the two are independent; each carries its fixed message; no other field is reported |
| StudentEntity.ValidRequestHasFields | backend/src/main/java/com/ars/backend/dto/StudentRequest.java:8-11 | a request without violations has both fields, and its username is not blank |
| StudentMapper.ToEntity | backend/src/main/java/com/ars/backend/mapper/StudentMapper.java:11-16 | a fresh entity with no id that carries the request's username and level |
| StudentMapper.ToResponse | backend/src/main/java/com/ars/backend/mapper/StudentMapper.java:18-25 | the response copies the saved entity's id, username and level unchanged |
| StudentMapper.UpdateEntity | backend/src/main/java/com/ars/backend/mapper/StudentMapper.java:27-30 | username and level are overwritten in place with the request's values; the id is untouched, so `ToResponse` afterwards gives (old id, new username, new level) |
| StudentRepository.IdsWithUsername | backend/src/main/java/com/ars/backend/repository/StudentRepository.java:17 | exactly the ids whose username equals the argument |
| StudentRepository.AtMostOneWithUsername | backend/src/main/java/com/ars/backend/entity/Student.java:21 | under the unique-username constraint, at most one row has a given username |
| StudentRepository.IdsWithLevel | backend/src/main/java/com/ars/backend/repository/StudentRepository.java:19 | exactly the ids whose level equals the argument |
| StudentRepository.IdsMatching | backend/src/main/java/com/ars/backend/repository/StudentRepository.java:21 | exactly the ids whose lower-cased username contains the lower-cased search, or whose decimal id contains the search (the intended search) |
| StudentRepository.ToLowerKeepsNoWildcards | backend/src/main/java/com/ars/backend/repository/StudentRepository.java:21 | lower-casing a search with no `%` or `_` introduces none |
| StudentRepository.SearchAsWrittenAgreesWithoutWildcards | backend/src/main/java/com/ars/backend/repository/StudentRepository.java:21 | for a search with no `%` or `_`, the `LIKE` query as written matches a row iff the substring search does |
| StudentRepository.IdsMatchingAgreeWithoutWildcards | backend/src/main/java/com/ars/backend/repository/StudentRepository.java:21 | for such a search, the query as written returns exactly the intended rows |
| StudentRepository.PercentSearchMatchesEveryRow | backend/src/main/java/com/ars/backend/repository/StudentRepository.java:21 | as written, the search `%` matches any row |
| StudentRepository.PercentSearchReturnsEveryRow | backend/src/main/java/com/ars/backend/repository/StudentRepository.java:21 | as written, the search `%` returns the whole table |
| StudentRepository.PercentSearchIntendedFindsPercentNames | backend/src/main/java/com/ars/backend/repository/StudentRepository.java:21 | in every table, the intended search `%` finds exactly the rows whose username holds a `%` (no decimal id does), so nothing in a table without one |
| SqlLike.LikePercentMatchesAll | backend/src/main/java/com/ars/backend/repository/StudentRepository.java:21 | the pattern `%` matches every string |
| SqlLike.LikeIsContains | backend/src/main/java/com/ars/backend/repository/StudentRepository.java:21 | for a wildcard-free q, `s LIKE '%' + q + '%'` iff q is a substring of s |
| Text.ToLower | backend/src/main/java/com/ars/backend/repository/StudentRepository.java:21 | `LOWER`: same length, each character lower-cased |
| StudentRepository.StudentRepository.constructor | backend/src/main/java/com/ars/backend/repository/StudentRepository.java:15 | the repository starts empty, with ids allocated from 1 |
| StudentRepository.StudentRepository.FindById | backend/src/main/java/com/ars/backend/repository/StudentRepository.java:15 | a fresh entity with that id and the row's fields iff the id is present, else none |
| StudentRepository.StudentRepository.ExistsById | backend/src/main/java/com/ars/backend/service/impl/StudentServiceImpl.java:74 | true iff the table holds a row under the id; never for an id the counter has not handed out |
| StudentRepository.StudentRepository.FindAll | backend/src/main/java/com/ars/backend/repository/StudentRepository.java:15 | every row, under its key |
| StudentRepository.StudentRepository.FindByLevel | backend/src/main/java/com/ars/backend/repository/StudentRepository.java:19 | exactly the rows at the level, under their keys |
| StudentRepository.StudentRepository.SearchByUsernameOrId | backend/src/main/java/com/ars/backend/repository/StudentRepository.java:21-22 | exactly the rows the `LIKE` query matches as written, under their keys |
| StudentRepository.StudentRepository.FindByUsername | backend/src/main/java/com/ars/backend/repository/StudentRepository.java:17 | none iff no row has the username, else a fresh entity whose id is one such row, carrying that username and that row's level |
| StudentRepository.StudentRepository.Save | backend/src/main/java/com/ars/backend/entity/Student.java:17-19 | an unsaved entity gets the next id, which then advances; a saved one keeps its id; the row under the id becomes the entity's fields; the table stays well formed |
| StudentRepository.StudentRepository.DeleteById | backend/src/main/java/com/ars/backend/repository/StudentRepository.java:15 | removes exactly that key |
| StudentService.MessageIdentifiesError | backend/src/main/java/com/ars/backend/service/impl/StudentServiceImpl.java:35-78 | two exceptions with the same message are the same: the not-found message names one id and the duplicate message one username |
| StudentService.Get | backend/src/main/java/com/ars/backend/service/impl/StudentServiceImpl.java:35-38 | fails iff the id is absent, with NotFound(id); otherwise the response has that id and the row's fields |
| StudentService.Create | backend/src/main/java/com/ars/backend/service/impl/StudentServiceImpl.java:42-52 | Duplicate(username) iff some row holds the username, and then the table is unchanged; otherwise the response gets the next id and the new table is exactly the old rows plus the request's row under that id, with the counter advanced; that id is then the only one with the username |
| StudentService.Update | backend/src/main/java/com/ars/backend/service/impl/StudentServiceImpl.java:55-70 | the keys and the id counter never change, nor does any other row; a failure leaves the table unchanged; a success returns the id and stores the returned fields under it |
| StudentService.Delete | backend/src/main/java/com/ars/backend/service/impl/StudentServiceImpl.java:73-78 | succeeds iff the id is present, else NotFound(id) with the table unchanged; exactly that key is removed, the other rows and the id counter are kept |
| StudentService.AllStudents | backend/src/main/java/com/ars/backend/service/impl/StudentServiceImpl.java:28-31 | a response is listed iff it is the response of some row |
| StudentService.SearchResults | backend/src/main/java/com/ars/backend/service/impl/StudentServiceImpl.java:82-85 | exactly the responses of the rows the `LIKE` query matches as written, `%` and `_` acting as wildcards |
| StudentService.IntendedSearchResults | backend/src/main/java/com/ars/backend/service/impl/StudentServiceImpl.java:82-85 | the corrected search: exactly the responses of rows whose lower-cased username contains the lower-cased search or whose decimal id contains the search |
| StudentService.SearchResultsWithoutWildcards | backend/src/main/java/com/ars/backend/service/impl/StudentServiceImpl.java:82-85 | for a search without `%` or `_`, the search as written returns exactly the corrected search's students |
| StudentService.StudentsByLevel | backend/src/main/java/com/ars/backend/service/impl/StudentServiceImpl.java:89-92 | exactly the responses of rows at that level |
| StudentService.CreateKeepsConsistent | backend/src/main/java/com/ars/backend/service/impl/StudentServiceImpl.java:42-52 | create keeps the table well formed and usernames unique |
| StudentService.CreateFailsOnlyOnDuplicate | backend/src/main/java/com/ars/backend/service/impl/StudentServiceImpl.java:44-47 | create fails iff some row has the username, with Duplicate(username), and then the table is unchanged |
| StudentService.CreateThenGet | backend/src/main/java/com/ars/backend/service/impl/StudentServiceImpl.java:49-51 | a created student gets a new id, and reading it back returns exactly what create returned |
| StudentService.UpdateKeepsConsistent | backend/src/main/java/com/ars/backend/service/impl/StudentServiceImpl.java:55-70 | update keeps the table well formed and usernames unique |
| StudentService.UpdateKeepingUsernameSucceeds | backend/src/main/java/com/ars/backend/service/impl/StudentServiceImpl.java:60-65 | updating a present student under its own username always succeeds |
| StudentService.OtherHolderIsFound | backend/src/main/java/com/ars/backend/service/impl/StudentServiceImpl.java:60-65 | the lookup by username that finds the row itself (or nothing) means no other row holds the name |
| StudentService.UpdateOutcome | backend/src/main/java/com/ars/backend/service/impl/StudentServiceImpl.java:55-70 | an unknown id gives NotFound(id) before any username check; for a present id, Duplicate(username) iff another row holds it; a failure leaves the table unchanged; success iff the id is present and the name free, returning (id, username, level) and storing that row |
| StudentService.UpdateTouchesOnlyTarget | backend/src/main/java/com/ars/backend/service/impl/StudentServiceImpl.java:67-69 | after update, every other row and the id allocator are unchanged, and the keys are the same |
| StudentService.DeleteRemovesExactlyOne | backend/src/main/java/com/ars/backend/service/impl/StudentServiceImpl.java:73-78 | delete of a missing id fails with NotFound and changes nothing; otherwise exactly that key is removed |
| StudentService.CreateThenDeleteRestoresRows | backend/src/main/java/com/ars/backend/service/impl/StudentServiceImpl.java:42-78 | deleting what was just created restores the rows |
| StudentService.EmptySearchFindsAll | backend/src/main/java/com/ars/backend/service/impl/StudentServiceImpl.java:82-85 | the empty search returns every student |
| StudentService.SearchByIdFindsStudent | backend/src/main/java/com/ars/backend/repository/StudentRepository.java:21 | searching for a student's decimal id finds that student |
| StudentService.ByLevelPartitionsAll | backend/src/main/java/com/ars/backend/service/impl/StudentServiceImpl.java:89-92 | the level filter returns a subset of all students, disjoint for two different levels |
| StudentService.StudentServiceImpl.constructor | backend/src/main/java/com/ars/backend/service/impl/StudentServiceImpl.java:19-24 | the service wraps a repository whose table is consistent |
| StudentService.StudentServiceImpl.GetAllStudents | backend/src/main/java/com/ars/backend/service/impl/StudentServiceImpl.java:28-31 | maps the rows `findAll` returns to responses: `AllStudents` of the repository's table |
| StudentService.StudentServiceImpl.GetStudentById | backend/src/main/java/com/ars/backend/service/impl/StudentServiceImpl.java:35-38 | returns `Get` of the repository's table |
| StudentService.StudentServiceImpl.CreateStudent | backend/src/main/java/com/ars/backend/service/impl/StudentServiceImpl.java:42-52 | the new table and the result are those of `Create` on the old table, and the invariant is kept |
| StudentService.StudentServiceImpl.UpdateStudent | backend/src/main/java/com/ars/backend/service/impl/StudentServiceImpl.java:55-70 | the new table and the result are those of `Update` on the old table, and the invariant is kept |
| StudentService.StudentServiceImpl.DeleteStudent | backend/src/main/java/com/ars/backend/service/impl/StudentServiceImpl.java:73-78 | the new table and the result are those of `Delete` on the old table, and the invariant is kept |
| StudentService.StudentServiceImpl.SearchStudents | backend/src/main/java/com/ars/backend/service/impl/StudentServiceImpl.java:82-85 | maps the rows the search query returns to responses: `SearchResults` (as written) of the repository's table |
| StudentService.StudentServiceImpl.GetStudentsByLevel | backend/src/main/java/com/ars/backend/service/impl/StudentServiceImpl.java:89-92 | maps the rows `findByLevel` returns to responses: `StudentsByLevel` of the repository's table |
| StudentController.ParseDirection | backend/src/main/java/com/ars/backend/controller/StudentController.java:35-37 | DESC iff the text is four characters that upper-case to D, E, S, C; anything else is ASC |
| StudentController.DirectionRoundTrip | backend/src/main/java/com/ars/backend/controller/StudentController.java:35-37 | "ASC" and "DESC", in upper or lower case, parse back to their direction |
| StudentController.DescendingNeedsFourLetters | backend/src/main/java/com/ars/backend/controller/StudentController.java:35-37 | anything not four letters long, the empty string included, is ascending |
| StudentController.ParseDirectionIgnoresCase | backend/src/main/java/com/ars/backend/controller/StudentController.java:35-37 | two strings equal ignoring case parse to the same direction |
| StudentController.WithDefault | backend/src/main/java/com/ars/backend/controller/StudentController.java:30-33 | a present, non-empty parameter is used; a missing or empty one gives the default |
| StudentController.ToInt | backend/src/main/java/com/ars/backend/controller/StudentController.java:30-31 | a converted `int` parameter lies in the 32-bit range |
| StudentController.ToPageable | backend/src/main/java/com/ars/backend/controller/StudentController.java:30-38 | succeeds iff page and size convert, the defaulted sort property has a non-whitespace character, page >= 0 and size >= 1; the request then carries those numbers, that property and the direction parsed from the defaulted direction; a property of whitespace alone is BadSort |
| StudentController.DefaultPageable | backend/src/main/java/com/ars/backend/controller/StudentController.java:30-33 | missing or empty parameters give page 0, size 10, by id, ascending |
| StudentController.PrintedNumbersAreRead | backend/src/main/java/com/ars/backend/controller/StudentController.java:30-38 | decimal page and size in range, with a sort property that has text, are read back exactly |
| StudentController.BlankSortRefused | backend/src/main/java/com/ars/backend/controller/StudentController.java:38 | a sort property of one space is not defaulted, and `Sort.by` refuses it |
| StudentController.GetStudentById | backend/src/main/java/com/ars/backend/controller/StudentController.java:48-52 | 200 with the row's response iff the id is present, else NotFound(id) is raised |
| StudentController.GetAllStudents | backend/src/main/java/com/ars/backend/controller/StudentController.java:28-42 | answers iff the page request builds, else raises its error; the answer is 200 with that page request and exactly one response per row |
| StudentController.CreateStudent | backend/src/main/java/com/ars/backend/controller/StudentController.java:58-62 | an invalid body raises its violations with the table unchanged; 201 iff the body is valid and its username free, with the next id and the body's fields; the new table is the old rows plus that row under the next id, with the counter advanced; any refusal leaves the table unchanged |
| StudentController.UpdateStudent | backend/src/main/java/com/ars/backend/controller/StudentController.java:68-74 | an invalid body raises its violations; a valid one for an absent id raises NotFound(id); 200 iff valid, present and the username not held by another row; the new table is the old one with only the row under the id replaced by the body's fields, the counter kept; any refusal leaves the table unchanged |
| StudentController.DeleteStudent | backend/src/main/java/com/ars/backend/controller/StudentController.java:80-84 | 204 iff the id is present, and the new table is the old one without that key, every other row and the counter kept; otherwise NotFound(id) with the table unchanged |
| StudentController.SearchStudents | backend/src/main/java/com/ars/backend/controller/StudentController.java:90-105 | a missing query raises MissingParameter("query"); otherwise answers iff the page request builds, with 200 and exactly the rows the `LIKE` search matches as written |
| StudentController.GetStudentsByLevel | backend/src/main/java/com/ars/backend/controller/StudentController.java:111-126 | answers iff the page request builds, else raises its error; the answer is 200 with exactly the rows at the level |
| StudentController.ValidationComesFirst | backend/src/main/java/com/ars/backend/controller/StudentController.java:58-74 | an invalid body is rejected by create and update with its violations, before the service runs, leaving the table unchanged |
| StudentController.CreateAnswers201 | backend/src/main/java/com/ars/backend/controller/StudentController.java:58-62 | a valid create of a fresh username answers 201 with the request's fields under a new id, and the table stays consistent |
| StudentController.DeleteAnswers204 | backend/src/main/java/com/ars/backend/controller/StudentController.java:80-84 | delete answers 204 with no body and removes the key, or raises NotFound and changes nothing |
| StudentController.ListHandlersAgree | backend/src/main/java/com/ars/backend/controller/StudentController.java:28-126 | the list, search and level handlers succeed or fail together on the same parameters and build the same page request; the empty search lists everything, the level list a subset of it |
| StudentController.SearchNeedsQuery | backend/src/main/java/com/ars/backend/controller/StudentController.java:92 | search without `query` is a missing-parameter error |
| AdminAuth.BearerResponse | backend/src/main/java/com/ars/backend/dto/AuthResponse.java:7-9 | the response carries the token, with type "Bearer" |
| AdminAuth.MessageIdentifiesError | backend/src/main/java/com/ars/backend/service/impl/AuthServiceImpl.java:26-50 | two auth errors with the same message are the same error |
| AdminAuth.RegisterResult | backend/src/main/java/com/ars/backend/service/impl/AuthServiceImpl.java:26-38 | Duplicate(username) iff the username is taken, with the table unchanged; otherwise one row is added under the next id holding encode(password), the counter advances, and the token is generated for the saved admin |
| AdminAuth.LoginResult | backend/src/main/java/com/ars/backend/service/impl/AuthServiceImpl.java:41-50 | every failure is BadCredentials; success iff some admin has the username and `matches` accepts the password against its stored one, and then the token is that admin's |
| AdminAuth.RegisterKeepsConsistent | backend/src/main/java/com/ars/backend/service/impl/AuthServiceImpl.java:26-38 | register keeps admin usernames unique, and a refused register changes nothing |
| AdminAuth.RegisterRefusesTakenUsername | backend/src/main/java/com/ars/backend/service/impl/AuthServiceImpl.java:27-29 | a taken username gives Duplicate(username), with no token made and no row saved |
| AdminAuth.RegisterStoresEncodedPassword | backend/src/main/java/com/ars/backend/service/impl/AuthServiceImpl.java:31-37 | a fresh username adds exactly one row, holding encode(password); the token is generated for that saved admin, type "Bearer" |
| AdminAuth.LoginFailuresAlike | backend/src/main/java/com/ars/backend/service/impl/AuthServiceImpl.java:41-47 | an unknown username and a wrong password fail identically, with "Invalid username or password" |
| AdminAuth.LoginSucceedsOnMatch | backend/src/main/java/com/ars/backend/service/impl/AuthServiceImpl.java:45-49 | for an existing username, login succeeds iff the password matches, with the token of that admin |
| AdminAuth.RegisterThenLogin | backend/src/main/java/com/ars/backend/service/impl/AuthServiceImpl.java:26-50 | when the encoder's `matches` accepts its own `encode`, registering and then logging in both succeed with a token generated for the admin just saved |
| AdminAuth.AdminRepository.constructor | backend/src/main/java/com/ars/backend/entity/Admin.java:17 | the admin table starts empty, ids from 1 |
| AdminAuth.AdminRepository.FindByUsername | backend/src/main/java/com/ars/backend/service/impl/AuthServiceImpl.java:42-43 | none iff no admin has the username, else the stored admin of that name |
| AdminAuth.AdminRepository.Save | backend/src/main/java/com/ars/backend/entity/Admin.java:17 | a new admin is stored under the next id, which it receives |
| AdminAuth.AuthServiceImpl.constructor | backend/src/main/java/com/ars/backend/service/impl/AuthServiceImpl.java:17-23 | the service holds the repository, encoder and token provider it is given |
| AdminAuth.AuthServiceImpl.Register | backend/src/main/java/com/ars/backend/service/impl/AuthServiceImpl.java:26-38 | the new admin table and the result are those of `RegisterResult` on the old table |
| AdminAuth.AuthServiceImpl.Login | backend/src/main/java/com/ars/backend/service/impl/AuthServiceImpl.java:41-50 | the result is `LoginResult` of the table, which login does not change |
| ClientHttp.ServerMessage | frontend/src/app/pages/students/student-list/student-list.component.ts:350 | `error.error?.message` counts iff a body has a non-empty message |
| ClientHttp.MessageOr | frontend/src/app/pages/students/student-list/student-list.component.ts:350 | the server's message when it counts, else the fallback |
| ClientHttp.MessageOrNotEmpty | frontend/src/app/pages/students/student-list/student-list.component.ts:350 | with a non-empty fallback the shown message is never empty |
| ClientHttp.ClassifySubmitError | frontend/src/app/pages/students/student-create/student-create.component.ts:181-190 | field errors iff status 400 with an `errors` object (even an empty one), carrying that map; otherwise the server message or the fallback |
| ClientHttp.FieldErrorEntries | frontend/src/app/pages/students/student-create/student-create.component.ts:157-160 | no entries without field errors; otherwise exactly the map's (field, message) pairs |
| ClientHttp.FieldErrorEntriesCount | frontend/src/app/pages/students/student-edit/student-edit.component.ts:223-226 | one entry per field |
| ClientHttp.LoadErrorMessage | frontend/src/app/pages/students/student-detail/student-detail.component.ts:160-167 | never empty; a 404 is "Student not found."; any other failure the server message when there is one, else the generic text |
| ClientHttp.LoadErrorMessageCases | frontend/src/app/pages/students/student-detail/student-detail.component.ts:160-167 | a 404 reads "Student not found." whatever its body; otherwise the server message or "Failed to load student details."; never empty |
| ClientHttp.RouteNumber | frontend/src/app/pages/students/student-detail/student-detail.component.ts:145-148 | a missing or blank parameter is 0; NaN only for non-blank text; a non-zero number is the trimmed text read as a signed decimal |
| ClientHttp.RouteNumberRoundTrip | frontend/src/app/pages/students/student-detail/student-detail.component.ts:145-148 | `Number` of a printed id is that id, and it loads iff the id is not 0 |
| Text.Trim | frontend/src/app/pages/students/student-list/student-list.component.ts:323 | empty iff the string is all JavaScript whitespace; otherwise starts and ends with a non-space |
| Text.TrimIsSlice | frontend/src/app/pages/students/student-list/student-list.component.ts:323 | the trimmed string is a contiguous piece of the input |
| Text.TrimIdempotent | frontend/src/app/pages/students/student-list/student-list.component.ts:323-326 | trimming the already trimmed query changes nothing |
| Text.IntRoundTrip | frontend/src/app/services/student.service.ts:95 | the decimal text of an integer parses back to it |
| Text.IntToStringInjective | frontend/src/app/services/student.service.ts:45 | different ids print differently |
| StudentModel.ParseLevel | frontend/src/app/models/student.model.ts:3-7 | a parsed member has the parsed string as its value |
| StudentModel.LevelValueRoundTrip | frontend/src/app/models/student.model.ts:3-7 | every member is recovered from its value; values are distinct |
| StudentModel.ParseLevelExactly | frontend/src/app/models/student.model.ts:3-7 | the member values are exactly BACHELOR, MASTER and PHD |
| StudentModel.BadgeColoursDistinct | frontend/src/app/pages/students/student-detail/student-detail.component.ts:171-183 | the three levels get three distinct colours, none the gray default, which every other string gets |
| StudentClient.ParamsOf | frontend/src/app/services/student.service.ts:91-108 | `page` and `size` iff given (0 included), `sortBy` iff non-empty, `sortDirection` iff given, nothing else; numbers in decimal |
| StudentClient.BuildParams | frontend/src/app/services/student.service.ts:91-108 | the parameters built step by step are `ParamsOf` |
| StudentClient.ParamsEdgeCases | frontend/src/app/services/student.service.ts:91-107 | no configuration gives no parameters; page 0 is sent as "0"; an empty sort field is not sent |
| StudentClient.GetStudents | frontend/src/app/services/student.service.ts:35-38 | a GET of the collection URL, with no body, carrying the configuration's parameters and no query |
| StudentClient.GetStudentById | frontend/src/app/services/student.service.ts:44-46 | a GET of the per-id URL with no parameters and no body |
| StudentClient.CreateStudent | frontend/src/app/services/student.service.ts:52-54 | a POST to the collection URL whose body is the request, with no parameters |
| StudentClient.UpdateStudent | frontend/src/app/services/student.service.ts:60-62 | a PUT to the per-id URL whose body is the request, with no parameters |
| StudentClient.DeleteStudent | frontend/src/app/services/student.service.ts:68-70 | a DELETE of the per-id URL with no parameters and no body |
| StudentClient.GetStudentsByLevel | frontend/src/app/services/student.service.ts:86-89 | a GET of the level URL, with no body, carrying the configuration's parameters and no query |
| StudentClient.SearchStudents | frontend/src/app/services/student.service.ts:76-80 | a GET of the search URL with no body, sending the built parameters plus `query` |
| StudentClient.StudentUrlsDistinct | frontend/src/app/services/student.service.ts:44-89 | the per-id URL is one-to-one in the id and never equals the search or a level URL |
| StudentClient.WritesCarryRequest | frontend/src/app/services/student.service.ts:52-69 | create posts and update puts the request unchanged; update, delete and get share the per-id URL |
| ClientAuth.Item | frontend/src/app/services/auth.service.ts:49-59 | `getItem` gives the stored value iff the key is present |
| ClientAuth.AuthSurvivesReload | frontend/src/app/services/auth.service.ts:16-66 | after a login the token is read back as stored, and a reload restores the same user, authenticated iff the token is not empty; other storage is untouched |
| ClientAuth.LogoutIdempotent | frontend/src/app/services/auth.service.ts:41-47 | a second logout leaves storage and flags as the first did, each navigating to the login page, and a reload stays logged out |
| ClientAuth.AuthService.constructor | frontend/src/app/services/auth.service.ts:16-17 | the flag is set iff a non-empty token is stored; the user is the stored username, if any |
| ClientAuth.AuthService.GetToken | frontend/src/app/services/auth.service.ts:49-51 | exactly the stored `access_token`, or none |
| ClientAuth.AuthService.HandleAuthResponse | frontend/src/app/services/auth.service.ts:61-66 | stores the token and the given username, sets the flag and the user |
| ClientAuth.AuthService.Login | frontend/src/app/services/auth.service.ts:34-39 | posts to the login URL; on success stores the session under the request's username; on failure passes the error on and changes nothing |
| ClientAuth.AuthService.Register | frontend/src/app/services/auth.service.ts:27-32 | the same, against the register URL |
| ClientAuth.AuthService.Logout | frontend/src/app/services/auth.service.ts:41-47 | removes both keys, clears flag and user, navigates to `/auth/login` |
| JwtInterceptor.Intercept | frontend/src/app/interceptors/jwt.interceptor.ts:12-27 | unchanged unless the URL is not public and the token is non-empty; then exactly `Authorization: Bearer <token>` and `Content-Type: application/json` are set, URL, body and other headers kept |
| JwtInterceptor.AuthCallsArePublic | frontend/src/app/interceptors/jwt.interceptor.ts:12 | login and register URLs are public, so they go out without a token |
| JwtInterceptor.RequestsAfterLoginCarryToken | frontend/src/app/interceptors/jwt.interceptor.ts:14-21 | after a login, a non-public request carries the new token |
| JwtInterceptor.RequestsAfterLogoutCarryNone | frontend/src/app/interceptors/jwt.interceptor.ts:14-17 | after a logout, requests go out unchanged |
| StudentListView.ChooseRequest | frontend/src/app/pages/students/student-list/student-list.component.ts:323-333 | always a GET with no body: the search URL with the trimmed query when that is not empty, else the level URL when a level is selected, else the collection URL (its parameters: `ChooseRequestParams`) |
| StudentListView.ChooseRequestParams | frontend/src/app/pages/students/student-list/student-list.component.ts:314-333 | every request carries the current page, size, sort field and direction as `ParamsOf` builds them; the search adds exactly the trimmed query, the level and plain requests nothing more |
| StudentListView.SearchTakesPrecedence | frontend/src/app/pages/students/student-list/student-list.component.ts:323-327 | a non-blank query sends a search with the trimmed query and the current page and size, whatever the level |
| StudentListView.BlankQueryIgnored | frontend/src/app/pages/students/student-list/student-list.component.ts:323-333 | a whitespace-only query sends the level filter if a level is selected, else the plain list, and never a query parameter |
| StudentListView.UnfilteredRequestsList | frontend/src/app/pages/students/student-list/student-list.component.ts:331-333 | no query and no level sends the plain list with the current parameters |
| StudentListView.FirstPageParams | frontend/src/app/pages/students/student-list/student-list.component.ts:314-319 | the initial page info and sort give page=0, size=10, sortBy=id, sortDirection=ASC |
| StudentListView.FirstLoad | frontend/src/app/pages/students/student-list/student-list.component.ts:306-319 | the first load requests the plain list with those parameters |
| StudentListView.NoQueryNoSearch | frontend/src/app/pages/students/student-list/student-list.component.ts:360-364 | with the query cleared the request is never a search |
| StudentListView.ToggleTwice | frontend/src/app/pages/students/student-list/student-list.component.ts:370-373 | toggling changes the direction, and twice restores it |
| StudentListView.StudentListComponent.constructor | frontend/src/app/pages/students/student-list/student-list.component.ts:279-302 | the initial state: no students, page 0 of size 10, no filters, by id ascending, modal closed |
| StudentListView.StudentListComponent.LoadStudents | frontend/src/app/pages/students/student-list/student-list.component.ts:310-333 | loading on, error cleared, everything else kept; the call is the one the state selects |
| StudentListView.StudentListComponent.OnStudentsLoaded | frontend/src/app/pages/students/student-list/student-list.component.ts:335-351 | a page replaces the students and the six pagination fields; a failure keeps both and shows the server message or the fallback; loading off either way |
| StudentListView.StudentListComponent.OnSearch | frontend/src/app/pages/students/student-list/student-list.component.ts:355-358 | page number 0, size and level kept, then the load |
| StudentListView.StudentListComponent.OnLevelChange | frontend/src/app/pages/students/student-list/student-list.component.ts:360-364 | query cleared, page number 0, then a load that is never a search |
| StudentListView.StudentListComponent.OnSortChange | frontend/src/app/pages/students/student-list/student-list.component.ts:366-368 | only the sort field changes before the load; the page is kept |
| StudentListView.StudentListComponent.ToggleSortDirection | frontend/src/app/pages/students/student-list/student-list.component.ts:370-373 | only the direction flips before the load; the page is kept |
| StudentListView.StudentListComponent.ResetFilters | frontend/src/app/pages/students/student-list/student-list.component.ts:375-382 | query and level cleared, id ascending, page 0, size kept; the plain list of page 0 is requested |
| StudentListView.StudentListComponent.OnPageChange | frontend/src/app/pages/students/student-list/student-list.component.ts:384-387 | only the page number changes before the load |
| StudentListView.StudentListComponent.OpenDeleteModal | frontend/src/app/pages/students/student-list/student-list.component.ts:403-406 | sets the target and opens the modal |
| StudentListView.StudentListComponent.CloseDeleteModal | frontend/src/app/pages/students/student-list/student-list.component.ts:408-411 | clears the target and closes the modal |
| StudentListView.StudentListComponent.ConfirmDelete | frontend/src/app/pages/students/student-list/student-list.component.ts:413-418 | nothing without a target; otherwise the target's delete is sent and `deleteLoading` set |
| StudentListView.StudentListComponent.OnDeleteCompleted | frontend/src/app/pages/students/student-list/student-list.component.ts:420-429 | success closes the modal and reloads; failure shows the message and closes the modal without reloading |
| StudentEditView.IsDirty | frontend/src/app/pages/students/student-edit/student-edit.component.ts:170-178 | dirty iff a student is loaded and the form differs from the form of its fields |
| StudentEditView.DirtyMeansChanged | frontend/src/app/pages/students/student-edit/student-edit.component.ts:170-178 | the form just patched from a student is clean; a form is dirty iff it differs from the loaded fields |
| StudentEditView.NothingToSaveBeforeLoad | frontend/src/app/pages/students/student-edit/student-edit.component.ts:135 | with no student loaded the save button is disabled |
| StudentEditView.StudentEditComponent.constructor | frontend/src/app/pages/students/student-edit/student-edit.component.ts:160-190 | empty form, nothing loaded, nothing pending |
| StudentEditView.StudentEditComponent.NgOnInit | frontend/src/app/pages/students/student-edit/student-edit.component.ts:192-201 | the id is `Number` of the route parameter; the load is sent iff it is truthy |
| StudentEditView.StudentEditComponent.OnLoaded | frontend/src/app/pages/students/student-edit/student-edit.component.ts:204-219 | success keeps the original and patches the form (clean afterwards); failure sets the load error |
| StudentEditView.StudentEditComponent.OnSubmit | frontend/src/app/pages/students/student-edit/student-edit.component.ts:228-246 | sends iff the form is valid and dirty: invalid marks touched, clean does nothing, otherwise errors cleared and the form's fields put to the loaded id |
| StudentEditView.StudentEditComponent.OnSubmitted | frontend/src/app/pages/students/student-edit/student-edit.component.ts:247-261 | success navigates to `/students/<id>` with loading left on; failure turns loading off and files field errors or a message |
| StudentCreateView.SpacesPassOnlyTheClient | frontend/src/app/pages/students/student-create/student-create.component.ts:151-154 | a username of spaces passes the form's `required` but violates the server's `@NotBlank` |
| StudentCreateView.ServerValidIsClientValid | frontend/src/app/pages/students/student-create/student-create.component.ts:151-154 | a username the server accepts always passes the form |
| StudentCreateView.StudentCreateComponent.constructor | frontend/src/app/pages/students/student-create/student-create.component.ts:141-155 | empty form, nothing pending |
| StudentCreateView.StudentCreateComponent.OnSubmit | frontend/src/app/pages/students/student-create/student-create.component.ts:162-176 | sends iff the form is valid: invalid marks touched; otherwise both errors cleared and the form's fields posted |
| StudentCreateView.StudentCreateComponent.OnSubmitted | frontend/src/app/pages/students/student-create/student-create.component.ts:177-191 | success navigates to the new student's page; failure turns loading off and files field errors or a message |
| StudentDetailView.StudentDetailComponent.constructor | frontend/src/app/pages/students/student-detail/student-detail.component.ts:131-142 | nothing loaded, modal closed |
| StudentDetailView.StudentDetailComponent.NgOnInit | frontend/src/app/pages/students/student-detail/student-detail.component.ts:144-149 | the load is sent iff `Number` of the route id is truthy |
| StudentDetailView.StudentDetailComponent.LoadStudent | frontend/src/app/pages/students/student-detail/student-detail.component.ts:151-154 | loading on, error cleared, the student requested |
| StudentDetailView.StudentDetailComponent.OnLoaded | frontend/src/app/pages/students/student-detail/student-detail.component.ts:155-168 | shows the student, or the load error |
| StudentDetailView.StudentDetailComponent.OpenDeleteModal | frontend/src/app/pages/students/student-detail/student-detail.component.ts:185-187 | only the modal flag changes |
| StudentDetailView.StudentDetailComponent.CloseDeleteModal | frontend/src/app/pages/students/student-detail/student-detail.component.ts:189-191 | only the modal flag changes |
| StudentDetailView.StudentDetailComponent.ConfirmDelete | frontend/src/app/pages/students/student-detail/student-detail.component.ts:193-198 | nothing without a student; otherwise its delete is sent |
| StudentDetailView.StudentDetailComponent.OnDeleteCompleted | frontend/src/app/pages/students/student-detail/student-detail.component.ts:199-209 | success navigates to `/students`; failure shows the message, closes the modal and keeps the student |
| LoginView.ReturnTarget | frontend/src/app/pages/auth/login/login.component.ts:119-120 | a present, non-empty `returnUrl`, else `/students`; never empty |
| LoginView.LoginErrorMessage | frontend/src/app/pages/auth/login/login.component.ts:122-131 | never empty; a 401 is the invalid-credentials text; any other failure the server message when there is one, else the generic text |
| LoginView.LoginErrorMessageCases | frontend/src/app/pages/auth/login/login.component.ts:122-131 | a 401 reads as the server's bad-credentials message whatever its body; otherwise the server message or the generic text; never empty |
| LoginView.LoginComponent.constructor | frontend/src/app/pages/auth/login/login.component.ts:94-104 | empty form, nothing pending, bound to the session service |
| LoginView.LoginComponent.OnSubmit | frontend/src/app/pages/auth/login/login.component.ts:106-133 | sends iff the form is valid; success stores the session and opens the return target with loading left on; failure turns loading off, shows the message and leaves the session untouched |

## Left out

- HTTP transport and asynchronous delivery. A remote call is the value the sending method returns; its outcome is an input to a completion method. Two outcomes arriving out of order (a stale list response overwriting a newer filter) are not modelled.
- Paging and sorting are not modelled. Spring's `Page` slicing and sorting are library code, so handlers and service reads return the matching responses as a set; order, page boundaries and totals are lost.
- `@Transactional`, JPA persistence and the bean-validation engine are outside the model. The controller applies the two constraints directly, and the service requires a request with both fields, which validation guarantees.
- The HTTP status codes the exception handler gives to service and validation errors are not modelled: the exception handler is not part of this model. The controller raises the error, and only the success codes (200, 201, 204) are stated.
- Path-variable conversion in the backend (`Long id`, the `Level` in the URL) is not modelled; ids and levels reach the handlers as values.
- StudentController.ToInt: Spring's number conversion is modelled as an optional sign and ASCII decimal digits within the 32-bit range. Its whitespace trimming and hexadecimal forms are not modelled. Neither are the non-ASCII decimal digits `Integer.valueOf` also accepts (such as U+0663, read as 3).
- StudentController.ParseDirection: `equalsIgnoreCase` is modelled for ASCII letters only; the non-ASCII case pairs Java also equates (such as U+017F with `s`) are not.
- Text.ToLower: SQL `LOWER` is modelled for ASCII letters only.
- SqlLike.Like: the pattern is read with no escape character: `%` and `_` are wildcards and every other character is literal. Without an `ESCAPE` clause, MySQL, PostgreSQL and H2 take backslash as the default escape. The search `\` builds the pattern `%\%`, which such a database reads as "ends with `%`"; the model reads it as "contains `\`". That database-dependent reading is not modelled.
- StudentRepository.IdsWithUsername: usernames are compared exactly, character by character. The database compares the column under its collation, which may ignore case (as MySQL's default one does). Under such a collation `findByUsername`, `existsByUsername` and the unique constraint stated by `UniqueUsernames` would treat `Ann` and `ann` as the same username; the model does not capture that.
- ClientHttp.RouteNumber: JavaScript `Number` is modelled for decimal integers with optional sign and surrounding whitespace. Hexadecimal, exponent, fraction and `Infinity` forms are treated as NaN.
- ClientHttp.FieldErrorEntries: `Object.entries` is modelled as a set of pairs, so its order is not kept.
- JWT signing and parsing, and password hashing, are parameters (`generateToken`, `encode`, `matches`). JwtTokenProvider.java and JwtProperties.java are not part of this model.
- AdminAuth.RegisterThenLogin: `generateToken` is a function of the admin alone. The program stamps each token's issue and expiry times from the clock, so two tokens for the same admin differ there; the model does not capture that.
- StudentController.ToPageable: a sort property that is not a field of the entity fails only when the query runs; that failure is not modelled.
- The backend `Level` enumeration is not part of this model. It is an abstract type with equality, and its members are left open.
- `isDirty`'s memoisation as an Angular `computed` is not modelled (in the running app it may go stale); only the comparison is.
- The form's user edits are not modelled as operations. The views' methods take the form as it stands.
- The create and login buttons' `[disabled]` bindings (`loading() ||` form invalid) are not modelled; their submit methods state the gating on validity.
- Templates, markup, the navbar, route configuration and its guards, and the Swagger configuration are not modelled.
- Header names are compared exactly in the interceptor; HTTP's case-insensitive header names are not modelled.

## Findings

| source | as written | input that shows it | evidently intended | confidence | as-written member | corrected member |
|---|---|---|---|---|---|---|
| backend/src/main/java/com/ars/backend/repository/StudentRepository.java:21 | the search text is spliced unescaped into a `LIKE` pattern, so `%` and `_` in it act as wildcards | the search `%` matches every row, e.g. id 7 with username "bob" | a substring search on the lower-cased username or the decimal id, where `%` finds only rows that contain a `%` | not executed | StudentRepository.PercentSearchReturnsEveryRow | StudentRepository.PercentSearchIntendedFindsPercentNames |

The service's search follows the program and runs the query as written
(`StudentService.SearchResults`). The corrected search is `StudentRepository.IdsMatching`,
with `StudentService.IntendedSearchResults` as its service-level form.
`StudentRepository.IdsMatchingAgreeWithoutWildcards` and
`StudentService.SearchResultsWithoutWildcards` prove that the two return the same rows on
every search without `%` or `_`.

=== FILE: admin_auth.dfy ===
/**
 * Administrator registration and login over the admin table. The password encoder and the
 * token provider are parameters of the service: `encode`, `matches` and `generateToken`
 * are arbitrary functions, and every property below holds whatever they compute.
 */
module AdminAuth {
  import opened Wrappers

  /** The `admin_tbl` entity, built once and never changed; `id` is absent until saved. */
  datatype Admin = Admin(id: Option<int>, username: string, password: string)

  /** One stored admin, without its key. */
  datatype AdminRow = AdminRow(username: string, password: string)

  /** The admin table: rows by id and the identity column's next value. */
  datatype AdminStore = AdminStore(rows: map<int, AdminRow>, nextId: int) {
    predicate WellFormed() {
      1 <= nextId && forall id :: id in rows ==> 1 <= id < nextId
    }

    /** The unique constraint on the username column. */
    predicate UniqueUsernames() {
      forall i, j :: i in rows && j in rows && rows[i].username == rows[j].username ==> i == j
    }

    predicate Consistent() {
      WellFormed() && UniqueUsernames()
    }

    /** `existsByUsername`. */
    predicate HasUsername(username: string) {
      exists id :: id in rows && rows[id].username == username
    }
  }

  /** The body of a login or register call. */
  datatype AuthRequest = AuthRequest(username: string, password: string)

  /** What both calls return: the token and its type. */
  datatype AuthResponse = AuthResponse(accessToken: string, tokenType: string)

  /** The one-argument `AuthResponse` constructor: the token type is always "Bearer". */
  function BearerResponse(accessToken: string): (r: AuthResponse)
    ensures r.accessToken == accessToken && r.tokenType == "Bearer"
  {
    AuthResponse(accessToken, "Bearer")
  }

  /** The two exceptions, and their messages. Login uses one error for both of its failures. */
  datatype AuthError = Duplicate(username: string) | BadCredentials {
    function Message(): string {
      match this
      case Duplicate(username) => "Admin with username '" + username + "' already exists"
      case BadCredentials => "Invalid username or password"
    }
  }

  /** The message determines the error: a duplicate message names exactly one username. */
  lemma MessageIdentifiesError(a: AuthError, b: AuthError)
    requires a.Message() == b.Message()
    ensures a == b
  {
    if a.Duplicate? && b.Duplicate? {
      var k := |"Admin with username '"|;
      assert |a.username| == |b.username|;
      assert a.Message()[k..k + |a.username|] == a.username;
      assert b.Message()[k..k + |b.username|] == b.username;
    }
  }

  /** The stored admin with key `id`, as an entity. */
  function AdminAt(st: AdminStore, id: int): Admin
    requires id in st.rows
  {
    Admin(Some(id), st.rows[id].username, st.rows[id].password)
  }

  // ---------------------------------------------------------------- the operations as functions

  /**
   * `register`: refused when the username is taken; otherwise an admin holding the encoded
   * password is saved under the next id and the token generated for it is returned.
   */
  function RegisterResult(st: AdminStore, encode: string -> string, generateToken: Admin -> string,
                    request: AuthRequest): (out: (AdminStore, Result<AuthResponse, AuthError>))
    ensures out.1.Failure? <==> st.HasUsername(request.username)
    ensures out.1.Failure? ==> out == (st, Failure(Duplicate(request.username)))
    ensures out.1.Success? ==> out.0.rows.Keys == st.rows.Keys + {st.nextId} && out.0.nextId == st.nextId + 1
    ensures out.1.Success? ==> out.0.rows[st.nextId] == AdminRow(request.username, encode(request.password))
    ensures out.1.Success? ==> out.1.value == BearerResponse(generateToken(AdminAt(out.0, st.nextId)))
  {
    if st.HasUsername(request.username) then (st, Failure(Duplicate(request.username)))
    else
      var row := AdminRow(request.username, encode(request.password));
      var st' := AdminStore(st.rows[st.nextId := row], st.nextId + 1);
      (st', Success(BearerResponse(generateToken(AdminAt(st', st.nextId)))))
  }

  /**
   * `login`: the admin with the username, if any, whose stored password the encoder says
   * the given one matches; both failures are the same BadCredentials.
   */
  function LoginResult(st: AdminStore, matches: (string, string) -> bool, generateToken: Admin -> string,
                 request: AuthRequest): (r: Result<AuthResponse, AuthError>)
    requires st.UniqueUsernames()
    ensures r.Failure? ==> r.error == BadCredentials
    ensures r.Success? <==> exists id :: id in st.rows && st.rows[id].username == request.username
                                          && matches(request.password, st.rows[id].password)
    ensures forall id :: id in st.rows && st.rows[id].username == request.username
                         && matches(request.password, st.rows[id].password)
                         ==> r == Success(BearerResponse(generateToken(AdminAt(st, id))))
  {
    if !st.HasUsername(request.username) then Failure(BadCredentials)
    else
      var id :| id in st.rows && st.rows[id].username == request.username;
      if !matches(request.password, st.rows[id].password) then Failure(BadCredentials)
      else Success(BearerResponse(generateToken(AdminAt(st, id))))
  }

  // ---------------------------------------------------------------- properties

  /** Registering keeps the admin table consistent, and a refused registration changes nothing. */
  lemma RegisterKeepsConsistent(st: AdminStore, encode: string -> string, generateToken: Admin -> string,
                                request: AuthRequest)
    requires st.Consistent()
    ensures RegisterResult(st, encode, generateToken, request).0.Consistent()
    ensures RegisterResult(st, encode, generateToken, request).1.Failure? ==> RegisterResult(st, encode, generateToken, request).0 == st
  {
    var (st', r) := RegisterResult(st, encode, generateToken, request);
    if r.Success? {
      forall i, j | i in st'.rows && j in st'.rows && st'.rows[i].username == st'.rows[j].username
        ensures i == j
      {
      }
    }
  }

  /**
   * A registration with a free username adds exactly one admin, under a new id, holding the
   * encoded password and not the raw one (unless the encoder returns it unchanged); its
   * token is the one generated for that admin.
   */
  lemma RegisterStoresEncodedPassword(st: AdminStore, encode: string -> string, generateToken: Admin -> string,
                                      request: AuthRequest)
    requires st.Consistent() && !st.HasUsername(request.username)
    ensures var (st', r) := RegisterResult(st, encode, generateToken, request);
      && r.Success?
      && st.nextId !in st.rows
      && st'.rows == st.rows[st.nextId := AdminRow(request.username, encode(request.password))]
      && r.value == BearerResponse(generateToken(Admin(Some(st.nextId), request.username, encode(request.password))))
  {
  }

  /** A registration with a taken username is refused with Duplicate and stores nothing. */
  lemma RegisterRefusesTakenUsername(st: AdminStore, encode: string -> string, generateToken: Admin -> string,
                                     request: AuthRequest, id: int)
    requires id in st.rows && st.rows[id].username == request.username
    ensures RegisterResult(st, encode, generateToken, request) == (st, Failure(Duplicate(request.username)))
  {
  }

  /**
   * Login's two failures cannot be told apart: an unknown username and a wrong password give
   * the same error, hence the same message.
   */
  lemma LoginFailuresAlike(st: AdminStore, matches: (string, string) -> bool, generateToken: Admin -> string,
                           unknown: AuthRequest, wrong: AuthRequest)
    requires st.UniqueUsernames()
    requires !st.HasUsername(unknown.username)
    requires st.HasUsername(wrong.username)
    requires forall id :: id in st.rows && st.rows[id].username == wrong.username ==> !matches(wrong.password, st.rows[id].password)
    ensures LoginResult(st, matches, generateToken, unknown) == LoginResult(st, matches, generateToken, wrong) == Failure(BadCredentials)
    ensures LoginResult(st, matches, generateToken, unknown).error.Message() == "Invalid username or password"
  {
  }

  /** A login succeeds exactly when the stored admin's password matches, and its token is that admin's. */
  lemma LoginSucceedsOnMatch(st: AdminStore, matches: (string, string) -> bool, generateToken: Admin -> string,
                             request: AuthRequest, id: int)
    requires st.UniqueUsernames()
    requires id in st.rows && st.rows[id].username == request.username
    ensures LoginResult(st, matches, generateToken, request).Success? <==> matches(request.password, st.rows[id].password)
    ensures LoginResult(st, matches, generateToken, request).Success? ==>
      LoginResult(st, matches, generateToken, request) == Success(BearerResponse(generateToken(AdminAt(st, id))))
  {
  }

  /**
   * With an encoder whose `matches` accepts a password against its own encoding, a freshly
   * registered admin can log in at once: both calls succeed with a token generated for the
   * admin just saved.
   */
  lemma RegisterThenLogin(st: AdminStore, encode: string -> string, matches: (string, string) -> bool,
                          generateToken: Admin -> string, request: AuthRequest)
    requires st.Consistent() && !st.HasUsername(request.username)
    requires matches(request.password, encode(request.password))
    ensures var (st', r) := RegisterResult(st, encode, generateToken, request);
      var saved := Admin(Some(st.nextId), request.username, encode(request.password));
      && st'.UniqueUsernames()
      && r == Success(BearerResponse(generateToken(saved)))
      && LoginResult(st', matches, generateToken, request) == Success(BearerResponse(generateToken(saved)))
  {
    var (st', r) := RegisterResult(st, encode, generateToken, request);
    RegisterKeepsConsistent(st, encode, generateToken, request);
    LoginSucceedsOnMatch(st', matches, generateToken, request, st.nextId);
  }

  // ---------------------------------------------------------------- the objects

  /** The admin repository: the table's rows and its identity counter. */
  class AdminRepository {
    var rows: map<int, AdminRow>
    var nextId: int

    function Snapshot(): AdminStore
      reads this
    {
      AdminStore(rows, nextId)
    }

    constructor ()
      ensures Snapshot() == AdminStore(map[], 1) && Snapshot().Consistent()
    {
      rows := map[];
      nextId := 1;
    }

    /** `existsByUsername`. */
    predicate ExistsByUsername(username: string)
      reads this
    {
      Snapshot().HasUsername(username)
    }

    /** `findByUsername`: the admin holding `username`, or nothing. */
    method FindByUsername(username: string) returns (admin: Option<Admin>)
      ensures admin.None? <==> !Snapshot().HasUsername(username)
      ensures admin.Some? ==> admin.value.id.Some? && admin.value.id.value in rows
      ensures admin.Some? ==> admin.value == AdminAt(Snapshot(), admin.value.id.value)
      ensures admin.Some? ==> admin.value.username == username
    {
      if exists id :: id in rows && rows[id].username == username {
        var id :| id in rows && rows[id].username == username;
        admin := Some(Admin(Some(id), username, rows[id].password));
      } else {
        admin := None;
      }
    }

    /** `save` of a new admin: it is stored under the next generated id, which it comes back with. */
    method Save(admin: Admin) returns (saved: Admin)
      requires admin.id.None?
      modifies this
      ensures saved == admin.(id := Some(old(nextId)))
      ensures rows == old(rows)[old(nextId) := AdminRow(admin.username, admin.password)]
      ensures nextId == old(nextId) + 1
    {
      saved := admin.(id := Some(nextId));
      rows := rows[nextId := AdminRow(admin.username, admin.password)];
      nextId := nextId + 1;
    }
  }

  /** The authentication service, with its encoder and token provider as plain functions. */
  class AuthServiceImpl {
    const adminRepository: AdminRepository
    const encode: string -> string
    const matches: (string, string) -> bool
    const generateToken: Admin -> string

    ghost predicate Valid()
      reads this, adminRepository
    {
      adminRepository.Snapshot().Consistent()
    }

    constructor (adminRepository: AdminRepository, encode: string -> string,
                 matches: (string, string) -> bool, generateToken: Admin -> string)
      requires adminRepository.Snapshot().Consistent()
      ensures this.adminRepository == adminRepository && Valid()
      ensures this.encode == encode && this.matches == matches && this.generateToken == generateToken
    {
      this.adminRepository := adminRepository;
      this.encode := encode;
      this.matches := matches;
      this.generateToken := generateToken;
    }

    method Register(request: AuthRequest) returns (r: Result<AuthResponse, AuthError>)
      requires Valid()
      modifies adminRepository
      ensures Valid()
      ensures (adminRepository.Snapshot(), r)
           == RegisterResult(old(adminRepository.Snapshot()), encode, generateToken, request)
    {
      RegisterKeepsConsistent(adminRepository.Snapshot(), encode, generateToken, request);
      if adminRepository.ExistsByUsername(request.username) {
        return Failure(Duplicate(request.username));
      }
      var admin := Admin(None, request.username, encode(request.password));
      var saved := adminRepository.Save(admin);
      r := Success(BearerResponse(generateToken(saved)));
    }

    method Login(request: AuthRequest) returns (r: Result<AuthResponse, AuthError>)
      requires Valid()
      ensures r == LoginResult(adminRepository.Snapshot(), matches, generateToken, request)
    {
      var admin := adminRepository.FindByUsername(request.username);
      if admin.None? {
        return Failure(BadCredentials);
      }
      LoginSucceedsOnMatch(adminRepository.Snapshot(), matches, generateToken, request, admin.value.id.value);
      if !matches(request.password, admin.value.password) {
        return Failure(BadCredentials);
      }
      r := Success(BearerResponse(generateToken(admin.value)));
    }
  }
}

=== FILE: client_auth.dfy ===
/**
 * The client's authentication state: the browser's local storage (the `access_token` and
 * `username` entries), the authenticated flag and the current user, and the router's
 * navigations. Remote calls are modelled by their outcome, passed in.
 */
module ClientAuth {
  import opened Wrappers
  import opened ClientHttp

  const TokenKey := "access_token"
  const UsernameKey := "username"
  const LoginRoute := "/auth/login"

  datatype AuthRequest = AuthRequest(username: string, password: string)
  datatype AuthResponse = AuthResponse(accessToken: string, tokenType: string)

  /** A POST to one of the public auth endpoints. */
  datatype AuthCall = AuthCall(url: string, body: AuthRequest)

  function LoginUrl(apiUrl: string): string {
    apiUrl + "/api/auth/login"
  }

  function RegisterUrl(apiUrl: string): string {
    apiUrl + "/api/auth/register"
  }

  /** Everything the service holds, as a value. */
  datatype AuthState = AuthState(storage: map<string, string>, isAuthenticated: bool,
                                 currentUser: Option<string>, navigations: seq<string>)

  /** `!!localStorage.getItem('access_token')`: an entry is present and not empty. */
  predicate HasToken(storage: map<string, string>) {
    TokenKey in storage && storage[TokenKey] != ""
  }

  /** `localStorage.getItem(key)`. */
  function Item(storage: map<string, string>, key: string): (value: Option<string>)
    ensures value.Some? <==> key in storage
    ensures value.Some? ==> value.value == storage[key]
  {
    if key in storage then Some(storage[key]) else None
  }

  /** The state a service starts in over the given storage, as on every page load. */
  function Initial(storage: map<string, string>): AuthState {
    AuthState(storage, HasToken(storage), Item(storage, UsernameKey), [])
  }

  /** `handleAuthResponse`: token and username stored, flag set, user set. */
  function AfterAuth(s: AuthState, token: string, username: string): AuthState {
    s.(storage := s.storage[TokenKey := token][UsernameKey := username],
       isAuthenticated := true, currentUser := Some(username))
  }

  /** `logout`: both entries removed, flag cleared, user cleared, one navigation to the login page. */
  function AfterLogout(s: AuthState): AuthState {
    s.(storage := s.storage - {TokenKey, UsernameKey}, isAuthenticated := false, currentUser := None,
       navigations := s.navigations + [LoginRoute])
  }

  // ---------------------------------------------------------------- properties

  /**
   * After a login the token and user are read back as stored, and a reload restores the
   * same user; it restores the authenticated flag exactly when the token was not empty.
   */
  lemma AuthSurvivesReload(s: AuthState, token: string, username: string)
    ensures var t := AfterAuth(s, token, username);
      && Item(t.storage, TokenKey) == Some(token)
      && Initial(t.storage).currentUser == t.currentUser == Some(username)
      && (Initial(t.storage).isAuthenticated <==> token != "")
      && t.storage - {TokenKey, UsernameKey} == s.storage - {TokenKey, UsernameKey}
  {
  }

  /**
   * Logging out twice leaves the storage and the flags as one logout does, whatever the
   * prior state; each logout navigates to the login page; a reload stays logged out.
   */
  lemma LogoutIdempotent(s: AuthState)
    ensures var once := AfterLogout(s);
      var twice := AfterLogout(once);
      && twice.storage == once.storage && twice.isAuthenticated == once.isAuthenticated
      && twice.currentUser == once.currentUser
      && twice.navigations == s.navigations + [LoginRoute, LoginRoute]
      && Initial(once.storage) == AuthState(once.storage, false, None, [])
  {
  }

  // ---------------------------------------------------------------- the service object

  /** The root-provided authentication service. */
  class AuthService {
    const apiUrl: string
    var storage: map<string, string>
    var isAuthenticated: bool
    var currentUser: Option<string>
    var navigations: seq<string>

    function State(): AuthState
      reads this
    {
      AuthState(storage, isAuthenticated, currentUser, navigations)
    }

    /** The two signals start from what local storage holds. */
    constructor (apiUrl: string, storage: map<string, string>)
      ensures this.apiUrl == apiUrl && State() == Initial(storage)
    {
      this.apiUrl := apiUrl;
      this.storage := storage;
      this.isAuthenticated := HasToken(storage);
      this.currentUser := Item(storage, UsernameKey);
      this.navigations := [];
    }

    /** `getToken`: the stored `access_token`, or nothing. */
    function GetToken(): (token: Option<string>)
      reads this
      ensures token == Item(storage, TokenKey)
    {
      Item(storage, TokenKey)
    }

    method HandleAuthResponse(response: AuthResponse, username: string)
      modifies this
      ensures State() == AfterAuth(old(State()), response.accessToken, username)
    {
      storage := storage[TokenKey := response.accessToken];
      storage := storage[UsernameKey := username];
      isAuthenticated := true;
      currentUser := Some(username);
    }

    /**
     * `login`: posts the request to the login endpoint; a success stores the session under
     * the request's username, a failure is passed on unchanged and changes nothing.
     */
    method Login(request: AuthRequest, outcome: Outcome<AuthResponse>) returns (call: AuthCall, result: Outcome<AuthResponse>)
      modifies this
      ensures call == AuthCall(LoginUrl(apiUrl), request) && result == outcome
      ensures outcome.Ok? ==> State() == AfterAuth(old(State()), outcome.value.accessToken, request.username)
      ensures outcome.Fail? ==> State() == old(State())
    {
      call := AuthCall(LoginUrl(apiUrl), request);
      if outcome.Ok? {
        HandleAuthResponse(outcome.value, request.username);
      }
      result := outcome;
    }

    /** `register`: as `login`, against the register endpoint. */
    method Register(request: AuthRequest, outcome: Outcome<AuthResponse>) returns (call: AuthCall, result: Outcome<AuthResponse>)
      modifies this
      ensures call == AuthCall(RegisterUrl(apiUrl), request) && result == outcome
      ensures outcome.Ok? ==> State() == AfterAuth(old(State()), outcome.value.accessToken, request.username)
      ensures outcome.Fail? ==> State() == old(State())
    {
      call := AuthCall(RegisterUrl(apiUrl), request);
      if outcome.Ok? {
        HandleAuthResponse(outcome.value, request.username);
      }
      result := outcome;
    }

    method Logout()
      modifies this
      ensures State() == AfterLogout(old(State()))
    {
      storage := storage - {TokenKey};
      storage := storage - {UsernameKey};
      isAuthenticated := false;
      currentUser := None;
      navigations := navigations + [LoginRoute];
    }
  }
}

=== FILE: client_http.dfy ===
/**
 * What the client's views see of a failed HTTP call, and the rules they share for turning
 * one into a message: JavaScript truthiness of `error.error?.message` and of
 * `error.error?.errors`.
 */
module ClientHttp {
  import opened Wrappers
  import Text

  /** The JSON body of an error response, when it has one: an optional message and field map. */
  datatype ErrorBody = ErrorBody(message: Option<string>, errors: Option<map<string, string>>)

  /** A failed call: its status (0 for a transport failure) and its parsed body, if any. */
  datatype HttpError = HttpError(status: int, body: Option<ErrorBody>)

  /** The result of a remote call, delivered to the view's callback. */
  datatype Outcome<T> = Ok(value: T) | Fail(error: HttpError)

  /** `error.error?.message` used as a condition: present and not the empty string. */
  function ServerMessage(e: HttpError): (m: Option<string>)
    ensures m.Some? <==> e.body.Some? && e.body.value.message.Some? && e.body.value.message.value != ""
    ensures m.Some? ==> m.value == e.body.value.message.value
  {
    match e.body
    case Some(ErrorBody(Some(message), _)) => if message != "" then Some(message) else None
    case _ => None
  }

  /** `error.error?.message || fallback`. */
  function MessageOr(e: HttpError, fallback: string): (m: string)
    ensures ServerMessage(e).Some? ==> m == ServerMessage(e).value
    ensures ServerMessage(e).None? ==> m == fallback
  {
    ServerMessage(e).GetOr(fallback)
  }

  /** An error message shown to the user is never empty when the fallback is not. */
  lemma MessageOrNotEmpty(e: HttpError, fallback: string)
    requires fallback != ""
    ensures MessageOr(e, fallback) != ""
  {
  }

  /** How a create or update view files a failed submission. */
  datatype SubmitError = FieldErrors(errors: map<string, string>) | ErrorMessage(message: string)

  /**
   * A 400 whose body has an `errors` object (an object is truthy even when empty) gives the
   * field errors; anything else gives the server message, else the fallback.
   */
  function ClassifySubmitError(e: HttpError, fallback: string): (r: SubmitError)
    ensures r.FieldErrors? <==> e.status == 400 && e.body.Some? && e.body.value.errors.Some?
    ensures r.FieldErrors? ==> r.errors == e.body.value.errors.value
    ensures r.ErrorMessage? ==> r.message == MessageOr(e, fallback)
  {
    if e.status == 400 && e.body.Some? && e.body.value.errors.Some? then FieldErrors(e.body.value.errors.value)
    else ErrorMessage(MessageOr(e, fallback))
  }

  /**
   * `getFieldErrorEntries`: no entries without a field map, otherwise exactly its
   * (field, message) pairs.
   */
  function FieldErrorEntries(fieldErrors: Option<map<string, string>>): (entries: set<(string, string)>)
    ensures fieldErrors.None? ==> entries == {}
    ensures forall f, m :: (f, m) in entries <==> fieldErrors.Some? && f in fieldErrors.value && fieldErrors.value[f] == m
  {
    match fieldErrors
    case None => {}
    case Some(errors) => set f | f in errors :: (f, errors[f])
  }

  /** There is one entry per field: the entries and the field map have the same size. */
  lemma FieldErrorEntriesCount(errors: map<string, string>)
    ensures |FieldErrorEntries(Some(errors))| == |errors|
  {
    var entries := FieldErrorEntries(Some(errors));
    assert entries == set f | f in errors.Keys :: (f, errors[f]);
    EntriesCount(errors.Keys, errors);
  }

  /** The pairs `(f, errors[f])` for the fields `fs` number as many as the fields. */
  lemma {:induction false} EntriesCount(fs: set<string>, errors: map<string, string>)
    requires fs <= errors.Keys
    ensures |set f | f in fs :: (f, errors[f])| == |fs|
    decreases |fs|
  {
    if fs != {} {
      var f :| f in fs;
      var rest := fs - {f};
      EntriesCount(rest, errors);
      assert (set g | g in fs :: (g, errors[g])) == (set g | g in rest :: (g, errors[g])) + {(f, errors[f])};
    }
  }

  // ---------------------------------------------------------------- loading one student

  const StudentNotFound := "Student not found."
  const LoadDetailsFailed := "Failed to load student details."

  /** The message the detail and edit views show when loading a student fails. */
  function LoadErrorMessage(e: HttpError): (msg: string)
    ensures msg != ""
    ensures e.status == 404 ==> msg == StudentNotFound
    ensures e.status != 404 ==> msg == if ServerMessage(e).Some? then ServerMessage(e).value else LoadDetailsFailed
  {
    if e.status == 404 then StudentNotFound else MessageOr(e, LoadDetailsFailed)
  }

  /**
   * A 404 reads "Student not found." whatever its body says; any other failure shows the
   * server's message when it has one, else the generic text; the result is never empty.
   */
  lemma LoadErrorMessageCases(e: HttpError)
    ensures e.status == 404 ==> LoadErrorMessage(e) == StudentNotFound
    ensures e.status != 404 && ServerMessage(e).Some? ==> LoadErrorMessage(e) == ServerMessage(e).value
    ensures e.status != 404 && ServerMessage(e).None? ==> LoadErrorMessage(e) == LoadDetailsFailed
    ensures LoadErrorMessage(e) != ""
  {
  }

  // ---------------------------------------------------------------- the numeric route id

  /**
   * `Number(paramMap.get('id'))` on what a route segment can hold: a missing parameter and
   * the empty string are 0; surrounding whitespace is ignored; an optionally signed run of
   * decimal digits is its value; anything else is NaN (None).
   */
  function RouteNumber(param: Option<string>): (n: Option<int>)
    ensures param.None? || Text.Trim(param.value) == "" ==> n == Some(0)
    ensures n.None? ==> param.Some? && Text.Trim(param.value) != ""
    ensures n.Some? && n.value != 0 ==> param.Some? && Text.ParseInt(Text.Trim(param.value)) == n
  {
    match param
    case None => Some(0)
    case Some(text) =>
      var trimmed := Text.Trim(text);
      if trimmed == "" then Some(0) else Text.ParseInt(trimmed)
  }

  /** `if (id)`: a number is truthy unless it is 0 or NaN. */
  predicate Truthy(n: Option<int>) {
    n.Some? && n.value != 0
  }

  /** A route id the client itself printed is read back as that id, and loads when it is not 0. */
  lemma RouteNumberRoundTrip(id: int)
    ensures RouteNumber(Some(Text.IntToString(id))) == Some(id)
    ensures Truthy(RouteNumber(Some(Text.IntToString(id)))) <==> id != 0
  {
    var s := Text.IntToString(id);
    NoWhitespaceInNumber(id);
    TrimLeavesUnpadded(s);
    Text.IntRoundTrip(id);
  }

  /** The decimal text of an integer has no whitespace. */
  lemma NoWhitespaceInNumber(id: int)
    ensures forall i :: 0 <= i < |Text.IntToString(id)| ==> !Text.IsJsWhitespace(Text.IntToString(id)[i])
  {
    var s := Text.IntToString(id);
    if id < 0 {
      forall i | 1 <= i < |s| ensures Text.IsDigit(s[i]) {
        assert s[i] == s[1..][i - 1];
      }
    }
  }

  /** Trimming a string that neither starts nor ends with whitespace leaves it as it is. */
  lemma TrimLeavesUnpadded(s: string)
    requires s != [] && !Text.IsJsWhitespace(s[0]) && !Text.IsJsWhitespace(s[|s| - 1])
    ensures Text.Trim(s) == s
  {
  }
}

=== FILE: jwt_interceptor.dfy ===
/** The HTTP interceptor that attaches the bearer token to every non-auth request. */
module JwtInterceptor {
  import opened Wrappers
  import Text
  import ClientAuth

  /** An outgoing request: its URL, its headers and its body. */
  datatype Request = Request(url: string, headers: map<string, string>, body: Option<string>)

  /** The auth endpoints are public: no token is attached to them. */
  predicate IsPublic(url: string) {
    Text.Contains(url, "/api/auth/")
  }

  /** A token is attached when the URL is not public and the token is present and non-empty. */
  predicate Attaches(url: string, token: Option<string>) {
    !IsPublic(url) && token.Some? && token.value != ""
  }

  /**
   * The request handed to `next`, once: unchanged, or a copy with `Authorization: Bearer
   * <token>` and `Content-Type: application/json` set and nothing else changed.
   */
  function Intercept(req: Request, token: Option<string>): (forwarded: Request)
    ensures !Attaches(req.url, token) ==> forwarded == req
    ensures forwarded.url == req.url && forwarded.body == req.body
    ensures Attaches(req.url, token) ==>
      && forwarded.headers.Keys == req.headers.Keys + {"Authorization", "Content-Type"}
      && forwarded.headers["Authorization"] == "Bearer " + token.value
      && forwarded.headers["Content-Type"] == "application/json"
    ensures forall h :: h in req.headers && h != "Authorization" && h != "Content-Type" ==>
      h in forwarded.headers && forwarded.headers[h] == req.headers[h]
  {
    if Attaches(req.url, token) then
      req.(headers := req.headers["Authorization" := "Bearer " + token.value]["Content-Type" := "application/json"])
    else req
  }

  /** The login and register URLs are public, so credentials are sent without any old token. */
  lemma AuthCallsArePublic(apiUrl: string, token: Option<string>, headers: map<string, string>)
    ensures IsPublic(ClientAuth.LoginUrl(apiUrl)) && IsPublic(ClientAuth.RegisterUrl(apiUrl))
    ensures Intercept(Request(ClientAuth.LoginUrl(apiUrl), headers, None), token).headers == headers
  {
    var login := ClientAuth.LoginUrl(apiUrl);
    var register := ClientAuth.RegisterUrl(apiUrl);
    assert Text.IsPrefix("/api/auth/", login[|apiUrl|..]);
    assert Text.IsPrefix("/api/auth/", register[|apiUrl|..]);
  }

  /**
   * After a login, every non-public request carries the token just stored, provided the
   * server returned a non-empty one.
   */
  lemma RequestsAfterLoginCarryToken(s: ClientAuth.AuthState, token: string, username: string, req: Request)
    requires !IsPublic(req.url) && token != ""
    ensures var stored := ClientAuth.AfterAuth(s, token, username).storage;
      Intercept(req, ClientAuth.Item(stored, ClientAuth.TokenKey)).headers["Authorization"] == "Bearer " + token
  {
  }

  /** After a logout no request carries a token. */
  lemma RequestsAfterLogoutCarryNone(s: ClientAuth.AuthState, req: Request)
    ensures var stored := ClientAuth.AfterLogout(s).storage;
      Intercept(req, ClientAuth.Item(stored, ClientAuth.TokenKey)) == req
  {
  }
}

=== FILE: login_view.dfy ===
/**
 * The login view: a two-field form whose valid submission logs in through the
 * authentication service and then opens the page the user was sent away from.
 */
module LoginView {
  import opened Wrappers
  import opened ClientHttp
  import opened ClientAuth
  import AdminAuth

  const DefaultTarget := "/students"
  const InvalidCredentials := "Invalid username or password"
  const LoginFailed := "An error occurred. Please try again."

  datatype LoginForm = LoginForm(username: string, password: string)

  /** `Validators.required` on both controls. */
  predicate LoginFormValid(form: LoginForm) {
    form.username != "" && form.password != ""
  }

  /** `queryParams['returnUrl'] || '/students'`: a missing or empty return URL means the list. */
  function ReturnTarget(returnUrl: Option<string>): (target: string)
    ensures target != ""
    ensures returnUrl.Some? && returnUrl.value != "" ==> target == returnUrl.value
    ensures returnUrl.None? || returnUrl.value == "" ==> target == DefaultTarget
  {
    match returnUrl
    case Some(url) => if url != "" then url else DefaultTarget
    case None => DefaultTarget
  }

  /** The message of a failed login. */
  function LoginErrorMessage(e: HttpError): (msg: string)
    ensures msg != ""
    ensures e.status == 401 ==> msg == InvalidCredentials
    ensures e.status != 401 ==> msg == if ServerMessage(e).Some? then ServerMessage(e).value else LoginFailed
  {
    if e.status == 401 then InvalidCredentials else MessageOr(e, LoginFailed)
  }

  /**
   * A rejected login (401) reads the same whatever its body says, and it reads exactly as
   * the server's bad-credentials message, so the client cannot tell a wrong username from a
   * wrong password either; any other failure shows the server's message when there is one,
   * else the generic text.
   */
  lemma LoginErrorMessageCases(e: HttpError, other: Option<ErrorBody>)
    ensures e.status == 401 ==> LoginErrorMessage(e) == AdminAuth.AuthError.BadCredentials.Message()
    ensures e.status == 401 ==> LoginErrorMessage(e) == LoginErrorMessage(HttpError(401, other))
    ensures e.status != 401 && ServerMessage(e).Some? ==> LoginErrorMessage(e) == ServerMessage(e).value
    ensures e.status != 401 && ServerMessage(e).None? ==> LoginErrorMessage(e) == LoginFailed
    ensures LoginErrorMessage(e) != ""
  {
  }

  /** All of the view's state, as a value. */
  datatype LoginState = LoginState(form: LoginForm, touched: bool, loading: bool, errorMessage: Option<string>,
                                   navigations: seq<string>)

  const InitialLoginState := LoginState(LoginForm("", ""), false, false, None, [])

  class LoginComponent {
    const auth: AuthService
    var form: LoginForm
    var touched: bool
    var loading: bool
    var errorMessage: Option<string>
    var navigations: seq<string>

    function State(): LoginState
      reads this
    {
      LoginState(form, touched, loading, errorMessage, navigations)
    }

    constructor (auth: AuthService)
      ensures this.auth == auth && State() == InitialLoginState
    {
      this.auth := auth;
      form := LoginForm("", "");
      touched := false;
      loading := false;
      errorMessage := None;
      navigations := [];
    }

    /**
     * `onSubmit`, with the login's outcome and the route's `returnUrl`: an invalid form is
     * only marked touched; a valid one logs in with the form's value, then either opens the
     * return target (leaving `loading` on) with the session stored, or shows the failure
     * with the session untouched.
     */
    method OnSubmit(returnUrl: Option<string>, outcome: Outcome<AuthResponse>) returns (call: Option<AuthCall>)
      modifies this, auth
      ensures call.Some? <==> LoginFormValid(old(form))
      ensures !LoginFormValid(old(form)) ==>
        State() == old(State()).(touched := true) && auth.State() == old(auth.State())
      ensures call.Some? ==> call.value == AuthCall(LoginUrl(auth.apiUrl), AuthRequest(old(form).username, old(form).password))
      ensures call.Some? && outcome.Ok? ==>
        && State() == old(State()).(loading := true, errorMessage := None,
                                    navigations := old(navigations) + [ReturnTarget(returnUrl)])
        && auth.State() == AfterAuth(old(auth.State()), outcome.value.accessToken, old(form).username)
      ensures call.Some? && outcome.Fail? ==>
        && State() == old(State()).(loading := false, errorMessage := Some(LoginErrorMessage(outcome.error)))
        && auth.State() == old(auth.State())
    {
      if !LoginFormValid(form) {
        touched := true;
        return None;
      }
      loading := true;
      errorMessage := None;
      var request := AuthRequest(form.username, form.password);
      var sent, result := auth.Login(request, outcome);
      call := Some(sent);
      match result
      case Ok(_) =>
        navigations := navigations + [ReturnTarget(returnUrl)];
      case Fail(e) =>
        loading := false;
        errorMessage := Some(LoginErrorMessage(e));
    }
  }
}

=== FILE: sql_like.dfy ===
/**
 * The SQL `LIKE` operator as the student search query uses it (no ESCAPE clause), and the
 * conditions under which `s LIKE '%' || q || '%'` is plain substring search.
 */
module SqlLike {
  import Text

  /** `s LIKE p`: `%` matches any run of characters, `_` exactly one, any other character itself. */
  predicate Like(s: string, p: string)
    decreases |s| + |p|
  {
    if p == [] then s == []
    else if p[0] == '%' then Like(s, p[1..]) || (s != [] && Like(s[1..], p))
    else s != [] && (p[0] == '_' || p[0] == s[0]) && Like(s[1..], p[1..])
  }

  /** `q` holds neither of the two wildcard characters. */
  predicate NoWildcards(q: string) {
    forall i :: 0 <= i < |q| ==> q[i] != '%' && q[i] != '_'
  }

  /** A lone `%` matches every string. */
  lemma {:induction false} LikePercentMatchesAll(s: string)
    ensures Like(s, "%")
    decreases |s|
  {
    if s != [] {
      LikePercentMatchesAll(s[1..]);
    }
  }

  /** A wildcard-free head of the pattern matches exactly the same characters at the head of `s`. */
  lemma {:induction false} LikeLiteralHead(s: string, q: string, rest: string)
    requires NoWildcards(q)
    ensures Like(s, q + rest) <==> Text.IsPrefix(q, s) && Like(s[|q|..], rest)
    decreases |q|
  {
    if q == [] {
      assert q + rest == rest;
    } else {
      assert (q + rest)[0] == q[0];
      assert (q + rest)[1..] == q[1..] + rest;
      if s != [] && q[0] == s[0] {
        LikeLiteralHead(s[1..], q[1..], rest);
        if Text.IsPrefix(q[1..], s[1..]) {
          assert s[1..][|q| - 1..] == s[|q|..];
          assert s[..|q|] == [s[0]] + s[1..][..|q| - 1];
        }
        if Text.IsPrefix(q, s) {
          assert s[1..][..|q| - 1] == s[1..|q|];
          assert q[1..] == s[1..|q|];
        }
      }
    }
  }

  /** A leading `%` lets the rest of the pattern match any suffix of `s`. */
  lemma {:induction false} LikeLeadingPercent(s: string, p: string)
    ensures Like(s, ['%'] + p) <==> exists i | 0 <= i <= |s| :: Like(s[i..], p)
    decreases |s|
  {
    var pp := ['%'] + p;
    assert pp[1..] == p;
    assert s[0..] == s;
    if s != [] {
      LikeLeadingPercent(s[1..], p);
      if exists j | 0 <= j <= |s[1..]| :: Like(s[1..][j..], p) {
        var j :| 0 <= j <= |s[1..]| && Like(s[1..][j..], p);
        assert s[1..][j..] == s[j + 1..];
      }
      if exists i | 0 <= i <= |s| :: Like(s[i..], p) {
        var i :| 0 <= i <= |s| && Like(s[i..], p);
        if i > 0 {
          assert s[1..][i - 1..] == s[i..];
        }
      }
    }
  }

  /** For a search string without wildcards, `s LIKE '%q%'` is exactly "q occurs in s". */
  lemma LikeIsContains(s: string, q: string)
    requires NoWildcards(q)
    ensures Like(s, "%" + q + "%") <==> Text.Contains(s, q)
  {
    assert "%" + q + "%" == ['%'] + (q + "%");
    LikeLeadingPercent(s, q + "%");
    forall i | 0 <= i <= |s|
      ensures Like(s[i..], q + "%") <==> Text.IsPrefix(q, s[i..])
    {
      LikeLiteralHead(s[i..], q, "%");
      if Text.IsPrefix(q, s[i..]) {
        LikePercentMatchesAll(s[i..][|q|..]);
      }
    }
  }
}

=== FILE: student_client.dfy ===
/**
 * The client's student service: which HTTP call each operation makes (verb, URL, query
 * parameters, body), and the query parameters `buildParams` assembles.
 */
module StudentClient {
  import opened Wrappers
  import opened StudentModel
  import Text

  /** The sort directions the client can request. */
  datatype SortDirection = ASC | DESC

  function DirectionValue(d: SortDirection): string {
    match d
    case ASC => "ASC"
    case DESC => "DESC"
  }

  /** `StudentQueryParams`: every key optional. */
  datatype QueryParams = QueryParams(page: Option<int>, size: Option<int>, sortBy: Option<string>,
                                     sortDirection: Option<SortDirection>)

  const NoParams := QueryParams(None, None, None, None)

  /**
   * The query parameters of a configuration: `page` and `size` whenever they are given
   * (0 included), `sortBy` only when it is a non-empty string, `sortDirection` whenever
   * given; numbers are sent in decimal.
   */
  function ParamsOf(q: QueryParams): (params: map<string, string>)
    ensures "page" in params <==> q.page.Some?
    ensures "size" in params <==> q.size.Some?
    ensures "sortBy" in params <==> q.sortBy.Some? && q.sortBy.value != ""
    ensures "sortDirection" in params <==> q.sortDirection.Some?
    ensures forall k :: k in params ==> k in {"page", "size", "sortBy", "sortDirection"}
    ensures q.page.Some? ==> params["page"] == Text.IntToString(q.page.value)
    ensures q.size.Some? ==> params["size"] == Text.IntToString(q.size.value)
    ensures "sortBy" in params ==> params["sortBy"] == q.sortBy.value
    ensures q.sortDirection.Some? ==> params["sortDirection"] == DirectionValue(q.sortDirection.value)
  {
    var withPage := if q.page.Some? then map["page" := Text.IntToString(q.page.value)] else map[];
    var withSize := if q.size.Some? then withPage["size" := Text.IntToString(q.size.value)] else withPage;
    var withSort := if q.sortBy.Some? && q.sortBy.value != "" then withSize["sortBy" := q.sortBy.value] else withSize;
    if q.sortDirection.Some? then withSort["sortDirection" := DirectionValue(q.sortDirection.value)] else withSort
  }

  /** `buildParams`: starts from no parameters and adds each one its condition admits. */
  method BuildParams(q: QueryParams) returns (httpParams: map<string, string>)
    ensures httpParams == ParamsOf(q)
  {
    httpParams := map[];
    if q.page.Some? {
      httpParams := httpParams["page" := Text.IntToString(q.page.value)];
    }
    if q.size.Some? {
      httpParams := httpParams["size" := Text.IntToString(q.size.value)];
    }
    if q.sortBy.Some? && q.sortBy.value != "" {
      httpParams := httpParams["sortBy" := q.sortBy.value];
    }
    if q.sortDirection.Some? {
      httpParams := httpParams["sortDirection" := DirectionValue(q.sortDirection.value)];
    }
  }

  /** An empty configuration sends no parameters; page 0 is sent, an empty sort field is not. */
  lemma ParamsEdgeCases(q: QueryParams)
    ensures ParamsOf(NoParams) == map[]
    ensures q.page == Some(0) ==> ParamsOf(q)["page"] == "0"
    ensures q.sortBy == Some("") ==> "sortBy" !in ParamsOf(q)
  {
    assert Text.IntToString(0) == "0";
  }

  // ---------------------------------------------------------------- the calls

  datatype Verb = GET | POST | PUT | DELETE

  /** One HTTP call as the service issues it. */
  datatype HttpCall = HttpCall(verb: Verb, url: string, params: map<string, string>, body: Option<StudentRequest>)

  /** `<apiUrl>/api/students`. */
  function StudentsUrl(apiUrl: string): string {
    apiUrl + "/api/students"
  }

  /** `<API>/<id>`, the id printed in decimal. */
  function StudentUrl(apiUrl: string, id: int): string {
    StudentsUrl(apiUrl) + "/" + Text.IntToString(id)
  }

  function SearchUrl(apiUrl: string): string {
    StudentsUrl(apiUrl) + "/search"
  }

  function LevelUrl(apiUrl: string, level: string): string {
    StudentsUrl(apiUrl) + "/level/" + level
  }

  /** `getStudents`: a GET of the collection, carrying the configuration's parameters and no body. */
  function GetStudents(apiUrl: string, q: QueryParams): (call: HttpCall)
    ensures call.verb == GET && call.url == StudentsUrl(apiUrl) && call.body.None?
    ensures call.params == ParamsOf(q) && "query" !in call.params
  {
    HttpCall(GET, StudentsUrl(apiUrl), ParamsOf(q), None)
  }

  /** `getStudentById`: a GET of the student's own URL, with no parameters and no body. */
  function GetStudentById(apiUrl: string, id: int): (call: HttpCall)
    ensures call.verb == GET && call.url == StudentUrl(apiUrl, id)
    ensures call.params == map[] && call.body.None?
  {
    HttpCall(GET, StudentUrl(apiUrl, id), map[], None)
  }

  /** `createStudent`: a POST to the collection whose body is the student. */
  function CreateStudent(apiUrl: string, student: StudentRequest): (call: HttpCall)
    ensures call.verb == POST && call.url == StudentsUrl(apiUrl)
    ensures call.params == map[] && call.body == Some(student)
  {
    HttpCall(POST, StudentsUrl(apiUrl), map[], Some(student))
  }

  /** `updateStudent`: a PUT to the student's own URL whose body is the student. */
  function UpdateStudent(apiUrl: string, id: int, student: StudentRequest): (call: HttpCall)
    ensures call.verb == PUT && call.url == StudentUrl(apiUrl, id)
    ensures call.params == map[] && call.body == Some(student)
  {
    HttpCall(PUT, StudentUrl(apiUrl, id), map[], Some(student))
  }

  /** `deleteStudent`: a DELETE of the student's own URL, with no parameters and no body. */
  function DeleteStudent(apiUrl: string, id: int): (call: HttpCall)
    ensures call.verb == DELETE && call.url == StudentUrl(apiUrl, id)
    ensures call.params == map[] && call.body.None?
  {
    HttpCall(DELETE, StudentUrl(apiUrl, id), map[], None)
  }

  /** `searchStudents`: the configuration's parameters plus `query`, always sent. */
  function SearchStudents(apiUrl: string, q: QueryParams, query: string): (call: HttpCall)
    ensures call.verb == GET && call.url == SearchUrl(apiUrl) && call.body.None?
    ensures call.params == ParamsOf(q)["query" := query]
  {
    HttpCall(GET, SearchUrl(apiUrl), ParamsOf(q)["query" := query], None)
  }

  /** `getStudentsByLevel`: a GET of the level's URL, carrying the configuration's parameters and no body. */
  function GetStudentsByLevel(apiUrl: string, level: string, q: QueryParams): (call: HttpCall)
    ensures call.verb == GET && call.url == LevelUrl(apiUrl, level) && call.body.None?
    ensures call.params == ParamsOf(q) && "query" !in call.params
  {
    HttpCall(GET, LevelUrl(apiUrl, level), ParamsOf(q), None)
  }

  /**
   * The per-student URL is one-to-one in the id, and it never coincides with the search URL
   * or a level URL: the segment after the base is the id's digits, which start with a
   * digit or `-`.
   */
  lemma StudentUrlsDistinct(apiUrl: string, id: int, other: int, level: string)
    ensures StudentUrl(apiUrl, id) == StudentUrl(apiUrl, other) ==> id == other
    ensures StudentUrl(apiUrl, id) != SearchUrl(apiUrl)
    ensures StudentUrl(apiUrl, id) != LevelUrl(apiUrl, level)
  {
    var base := StudentsUrl(apiUrl) + "/";
    var k := |base|;
    assert StudentUrl(apiUrl, id)[..k] == base;
    assert StudentUrl(apiUrl, id)[k..] == Text.IntToString(id);
    if StudentUrl(apiUrl, id) == StudentUrl(apiUrl, other) {
      assert StudentUrl(apiUrl, other)[k..] == Text.IntToString(other);
      Text.IntToStringInjective(id, other);
    }
    assert SearchUrl(apiUrl)[k] == 's';
    assert LevelUrl(apiUrl, level)[k] == 'l';
    assert StudentUrl(apiUrl, id)[k] == Text.IntToString(id)[0];
  }

  /** Create and update send the request object unchanged as their body. */
  lemma WritesCarryRequest(apiUrl: string, id: int, student: StudentRequest)
    ensures CreateStudent(apiUrl, student).body == Some(student) && CreateStudent(apiUrl, student).verb == POST
    ensures UpdateStudent(apiUrl, id, student).body == Some(student) && UpdateStudent(apiUrl, id, student).verb == PUT
    ensures UpdateStudent(apiUrl, id, student).url == DeleteStudent(apiUrl, id).url == GetStudentById(apiUrl, id).url
  {
  }
}

=== FILE: student_controller.dfy ===
/**
 * The student REST controller: request-parameter defaults, the sort-direction parser, the
 * page request each list handler builds, body validation, and the status each handler
 * answers with. The handlers hold no state; each is a function of the table.
 */
module StudentController {
  import opened Wrappers
  import opened StudentEntity
  import opened StudentRepository
  import opened StudentService
  import Text

  // ---------------------------------------------------------------- sort direction

  datatype Direction = ASC | DESC

  /** The name Spring prints for a direction. */
  function DirectionName(d: Direction): string {
    match d
    case ASC => "ASC"
    case DESC => "DESC"
  }

  /** `sortDirection.equalsIgnoreCase("DESC") ? DESC : ASC`. */
  function ParseDirection(s: string): (d: Direction)
    ensures d == DESC <==> |s| == 4 && forall i :: 0 <= i < 4 ==> Text.ToUpperChar(s[i]) == "DESC"[i]
  {
    if Text.EqualsIgnoreCase(s, "DESC") then DESC else ASC
  }

  /** Both names parse back to their direction, and the parse ignores letter case. */
  lemma DirectionRoundTrip(d: Direction)
    ensures ParseDirection(DirectionName(d)) == d
    ensures ParseDirection(Text.ToLower(DirectionName(d))) == d
  {
    var lower := Text.ToLower(DirectionName(d));
    if d == DESC {
      assert lower == "desc";
    } else {
      assert lower == "asc";
    }
  }

  /** Only a four-letter string can select DESC; every other string, "" included, gives ASC. */
  lemma DescendingNeedsFourLetters(s: string)
    ensures |s| != 4 ==> ParseDirection(s) == ASC
    ensures ParseDirection("") == ASC
  {
  }

  /** Two strings equal but for letter case parse to the same direction. */
  lemma ParseDirectionIgnoresCase(s: string, t: string)
    requires Text.EqualsIgnoreCase(s, t)
    ensures ParseDirection(s) == ParseDirection(t)
  {
    if Text.EqualsIgnoreCase(s, "DESC") {
      forall i | 0 <= i < |t| ensures Text.ToUpperChar(t[i]) == Text.ToUpperChar("DESC"[i]) {
        assert Text.ToUpperChar(s[i]) == Text.ToUpperChar(t[i]);
      }
    }
    if Text.EqualsIgnoreCase(t, "DESC") {
      forall i | 0 <= i < |s| ensures Text.ToUpperChar(s[i]) == Text.ToUpperChar("DESC"[i]) {
        assert Text.ToUpperChar(s[i]) == Text.ToUpperChar(t[i]);
      }
    }
  }

  // ---------------------------------------------------------------- request parameters

  const DefaultPage := "0"
  const DefaultSize := "10"
  const DefaultSortBy := "id"
  const DefaultSortDirection := "ASC"

  /**
   * `@RequestParam(defaultValue = d)`: the default replaces a parameter that is missing
   * (None) or sent empty.
   */
  function WithDefault(param: Option<string>, default: string): (v: string)
    ensures param.Some? && param.value != [] ==> v == param.value
    ensures param.None? || param.value == [] ==> v == default
  {
    if param.None? || param.value == [] then default else param.value
  }

  /** The range of a Java `int`. */
  const IntMin := -0x8000_0000
  const IntMax := 0x7FFF_FFFF

  /** Conversion of a parameter's text to a Java `int`: decimal digits that fit, or no value. */
  function ToInt(s: string): (r: Option<int>)
    ensures r.Some? ==> IntMin <= r.value <= IntMax
  {
    match Text.ParseInt(s)
    case Some(n) => if IntMin <= n <= IntMax then Some(n) else None
    case None => None
  }

  /** What a handler can raise before or instead of answering. */
  datatype ControllerError =
    | TypeMismatch(name: string, value: string)   // a parameter is not a number
    | MissingParameter(name: string)              // a required parameter is absent
    | BadSort(sortBy: string)                     // `Sort.by` refuses a property without text
    | BadPageRequest(page: int, size: int)        // `PageRequest.of` refuses the numbers
    | Invalid(violations: map<string, string>)    // the body fails validation
    | Service(error: StudentError)                // the service throws

  /** `PageRequest.of(page, size, Sort.by(direction, sortBy))`. */
  datatype Pageable = Pageable(page: nat, size: nat, sortBy: string, direction: Direction)

  /**
   * The page request of a list handler: each parameter is defaulted and the numbers
   * converted; `Sort.by` refuses a sort property without text, and then `PageRequest.of`
   * refuses a negative page or a size below one.
   */
  function ToPageable(page: Option<string>, size: Option<string>, sortBy: Option<string>,
                      sortDirection: Option<string>): (r: Result<Pageable, ControllerError>)
    ensures var p := ToInt(WithDefault(page, DefaultPage));
      var n := ToInt(WithDefault(size, DefaultSize));
      r.Success? <==> p.Some? && n.Some? && Text.HasText(WithDefault(sortBy, DefaultSortBy)) && 0 <= p.value && 1 <= n.value
    ensures r.Success? ==> r.value.page == ToInt(WithDefault(page, DefaultPage)).value
    ensures r.Success? ==> r.value.size == ToInt(WithDefault(size, DefaultSize)).value
    ensures r.Success? ==> r.value.sortBy == WithDefault(sortBy, DefaultSortBy) && Text.HasText(r.value.sortBy)
    ensures r.Success? ==> r.value.direction == ParseDirection(WithDefault(sortDirection, DefaultSortDirection))
    ensures var sortText := WithDefault(sortBy, DefaultSortBy);
      (ToInt(WithDefault(page, DefaultPage)).Some? && ToInt(WithDefault(size, DefaultSize)).Some? && !Text.HasText(sortText))
      ==> r == Failure(BadSort(sortText))
  {
    var pageText := WithDefault(page, DefaultPage);
    var sizeText := WithDefault(size, DefaultSize);
    var sortText := WithDefault(sortBy, DefaultSortBy);
    match (ToInt(pageText), ToInt(sizeText))
    case (None, _) => Failure(TypeMismatch("page", pageText))
    case (_, None) => Failure(TypeMismatch("size", sizeText))
    case (Some(p), Some(n)) =>
      if !Text.HasText(sortText) then Failure(BadSort(sortText))
      else if p < 0 || n < 1 then Failure(BadPageRequest(p, n))
      else Success(Pageable(p, n, sortText, ParseDirection(WithDefault(sortDirection, DefaultSortDirection))))
  }

  /** With no parameters at all, a list is the first page of ten, by id, ascending. */
  lemma DefaultPageable()
    ensures ToPageable(None, None, None, None) == Success(Pageable(0, 10, "id", ASC))
    ensures ToPageable(Some(""), Some(""), Some(""), Some("")) == Success(Pageable(0, 10, "id", ASC))
  {
    assert Text.ParseInt("0") == Some(0);
    assert Text.ParseDigits("10") == 10 by {
      assert "10"[..1] == "1";
    }
    assert Text.ParseInt("10") == Some(10);
    assert !Text.EqualsIgnoreCase("ASC", "DESC");
    assert !Text.IsJavaWhitespace("id"[0]);
  }

  /**
   * Page numbers and sizes the client prints in decimal reach the page request unchanged,
   * with any sort property that has text.
   */
  lemma PrintedNumbersAreRead(page: int, size: int, sortBy: string, sortDirection: string)
    requires 0 <= page <= IntMax && 1 <= size <= IntMax && Text.HasText(sortBy)
    ensures ToPageable(Some(Text.IntToString(page)), Some(Text.IntToString(size)), Some(sortBy), Some(sortDirection))
         == Success(Pageable(page, size, sortBy, ParseDirection(WithDefault(Some(sortDirection), DefaultSortDirection))))
  {
    Text.IntRoundTrip(page);
    Text.IntRoundTrip(size);
  }

  // ---------------------------------------------------------------- handlers

  /** A page of results together with the page request that produced it. */
  datatype Page = Page(content: set<StudentResponse>, pageable: Pageable)

  /** A handler either answers with a status and a body, or raises. */
  datatype Reply<T> = Respond(status: int, body: T) | Raise(error: ControllerError)

  /** `GET /api/students`: 200 with all students. */
  function GetAllStudents(st: Store, page: Option<string>, size: Option<string>, sortBy: Option<string>,
                          sortDirection: Option<string>): (reply: Reply<Page>)
    ensures reply.Respond? <==> ToPageable(page, size, sortBy, sortDirection).Success?
    ensures reply.Raise? ==> reply.error == ToPageable(page, size, sortBy, sortDirection).error
    ensures reply.Respond? ==> reply.status == 200 && reply.body.pageable == ToPageable(page, size, sortBy, sortDirection).value
    ensures reply.Respond? ==> forall r :: r in reply.body.content <==> r.id in st.rows && st.rows[r.id] == Row(r.username, r.level)
  {
    match ToPageable(page, size, sortBy, sortDirection)
    case Failure(e) => Raise(e)
    case Success(p) => Respond(200, Page(AllStudents(st), p))
  }

  /** `GET /api/students/{id}`: 200 with the student, or the service's NotFound. */
  function GetStudentById(st: Store, id: int): (reply: Reply<StudentResponse>)
    ensures reply.Respond? <==> id in st.rows
    ensures reply.Respond? ==> reply.status == 200 && reply.body == ResponseOf(st, id)
    ensures reply.Raise? ==> reply.error == Service(NotFound(id))
  {
    match Get(st, id)
    case Success(r) => Respond(200, r)
    case Failure(e) => Raise(Service(e))
  }

  /** `POST /api/students`: the body is validated first; then 201 with the created student. */
  function CreateStudent(st: Store, request: StudentRequest): (out: (Store, Reply<StudentResponse>))
    ensures !IsValid(request) ==> out == (st, Raise(Invalid(Violations(request))))
    ensures out.1.Respond? <==> IsValid(request) && request.username.Some?
                                && IdsWithUsername(st, request.username.value) == {}
    ensures out.1.Raise? ==> out.0 == st
    ensures out.1.Respond? ==> out.1.status == 201 && out.1.body.id == st.nextId && st.nextId in out.0.rows
    ensures out.1.Respond? ==> Some(out.1.body.username) == request.username && Some(out.1.body.level) == request.level
    ensures out.1.Respond? ==>
      out.0 == Store(st.rows[st.nextId := Row(out.1.body.username, out.1.body.level)], st.nextId + 1)
  {
    if !IsValid(request) then (st, Raise(Invalid(Violations(request))))
    else
      ValidRequestHasFields(request);
      var (st', r) := Create(st, request);
      match r
      case Success(created) => (st', Respond(201, created))
      case Failure(e) => (st', Raise(Service(e)))
  }

  /** `PUT /api/students/{id}`: the body is validated first; then 200 with the updated student. */
  function UpdateStudent(st: Store, id: int, request: StudentRequest): (out: (Store, Reply<StudentResponse>))
    ensures !IsValid(request) ==> out == (st, Raise(Invalid(Violations(request))))
    ensures out.1.Respond? <==> IsValid(request) && request.username.Some? && id in st.rows
                                && !TakenByOther(st, id, request.username.value)
    ensures IsValid(request) && id !in st.rows ==> out.1 == Raise(Service(NotFound(id)))
    ensures out.1.Raise? ==> out.0 == st
    ensures out.1.Respond? ==> out.1.status == 200 && out.1.body.id == id
    ensures out.1.Respond? ==> Some(out.1.body.username) == request.username && Some(out.1.body.level) == request.level
    ensures out.1.Respond? ==> out.0 == Store(st.rows[id := Row(out.1.body.username, out.1.body.level)], st.nextId)
  {
    if !IsValid(request) then (st, Raise(Invalid(Violations(request))))
    else
      ValidRequestHasFields(request);
      var (st', r) := Update(st, id, request);
      match r
      case Success(updated) => (st', Respond(200, updated))
      case Failure(e) => (st', Raise(Service(e)))
  }

  /** `DELETE /api/students/{id}`: 204 with no body. */
  function DeleteStudent(st: Store, id: int): (out: (Store, Reply<()>))
    ensures out.1.Respond? <==> id in st.rows
    ensures out.1.Respond? ==> out.1.status == 204 && out.0 == Store(st.rows - {id}, st.nextId)
    ensures out.1.Raise? ==> out == (st, Raise(Service(NotFound(id))))
  {
    var (st', r) := Delete(st, id);
    match r
    case Success(_) => (st', Respond(204, ()))
    case Failure(e) => (st', Raise(Service(e)))
  }

  /** `GET /api/students/search`: `query` has no default, so a missing one is refused first. */
  function SearchStudents(st: Store, query: Option<string>, page: Option<string>, size: Option<string>,
                          sortBy: Option<string>, sortDirection: Option<string>): (reply: Reply<Page>)
    ensures query.None? ==> reply == Raise(MissingParameter("query"))
    ensures reply.Respond? <==> query.Some? && ToPageable(page, size, sortBy, sortDirection).Success?
    ensures query.Some? && reply.Raise? ==> reply.error == ToPageable(page, size, sortBy, sortDirection).error
    ensures reply.Respond? ==> reply.status == 200 && reply.body.pageable == ToPageable(page, size, sortBy, sortDirection).value
    ensures reply.Respond? ==>
      (forall r :: r in reply.body.content <==> r in AllStudents(st) && SearchMatchesAsWritten(r.id, r.username, query.value))
  {
    if query.None? then Raise(MissingParameter("query"))
    else match ToPageable(page, size, sortBy, sortDirection)
      case Failure(e) => Raise(e)
      case Success(p) => Respond(200, Page(SearchResults(st, query.value), p))
  }

  /** `GET /api/students/level/{level}`: 200 with the students at that level. */
  function GetStudentsByLevel(st: Store, level: Level, page: Option<string>, size: Option<string>,
                              sortBy: Option<string>, sortDirection: Option<string>): (reply: Reply<Page>)
    ensures reply.Respond? <==> ToPageable(page, size, sortBy, sortDirection).Success?
    ensures reply.Raise? ==> reply.error == ToPageable(page, size, sortBy, sortDirection).error
    ensures reply.Respond? ==> reply.status == 200 && reply.body.pageable == ToPageable(page, size, sortBy, sortDirection).value
    ensures reply.Respond? ==> forall r :: r in reply.body.content <==> r in AllStudents(st) && r.level == level
  {
    match ToPageable(page, size, sortBy, sortDirection)
    case Failure(e) => Raise(e)
    case Success(p) => Respond(200, Page(StudentsByLevel(st, level), p))
  }

  // ---------------------------------------------------------------- properties of the handlers

  /**
   * An invalid body is answered with its violations before the service is reached: the
   * table is unchanged even when the id is unknown or the username taken.
   */
  lemma ValidationComesFirst(st: Store, id: int, request: StudentRequest)
    requires !IsValid(request)
    ensures CreateStudent(st, request) == (st, Raise(Invalid(Violations(request))))
    ensures UpdateStudent(st, id, request) == (st, Raise(Invalid(Violations(request))))
    ensures Violations(request) != map[]
  {
  }

  /** A valid body with a free username is answered 201 with a new student carrying the body's fields. */
  lemma CreateAnswers201(st: Store, request: StudentRequest)
    requires Consistent(st) && IsValid(request)
    requires IdsWithUsername(st, request.username.value) == {}
    ensures var (st', reply) := CreateStudent(st, request);
      && reply.Respond? && reply.status == 201
      && reply.body.username == request.username.value && reply.body.level == request.level.value
      && reply.body.id !in st.rows && st'.rows.Keys == st.rows.Keys + {reply.body.id}
      && Consistent(st')
  {
    ValidRequestHasFields(request);
    CreateKeepsConsistent(st, request);
  }

  /** A delete of an existing student answers 204 and removes it; an unknown id is NotFound. */
  lemma DeleteAnswers204(st: Store, id: int)
    ensures var (st', reply) := DeleteStudent(st, id);
      && (id in st.rows ==> reply == Respond(204, ()) && st'.rows.Keys == st.rows.Keys - {id})
      && (id !in st.rows ==> reply == Raise(Service(NotFound(id))) && st' == st)
  {
  }

  /**
   * The three list handlers build the same page request from the same parameters, so they
   * share the defaults and the direction rule; an empty search lists every student.
   */
  lemma ListHandlersAgree(st: Store, level: Level, page: Option<string>, size: Option<string>,
                          sortBy: Option<string>, sortDirection: Option<string>)
    ensures var all := GetAllStudents(st, page, size, sortBy, sortDirection);
      var search := SearchStudents(st, Some(""), page, size, sortBy, sortDirection);
      var byLevel := GetStudentsByLevel(st, level, page, size, sortBy, sortDirection);
      && all.Respond? == search.Respond? == byLevel.Respond?
      && (all.Respond? ==> all.body.pageable == search.body.pageable == byLevel.body.pageable)
      && (all.Respond? ==> search.body.content == all.body.content)
      && (all.Respond? ==> byLevel.body.content <= all.body.content)
  {
    EmptySearchFindsAll(st);
  }

  /** A sort property of spaces is refused, although it is not empty and so not defaulted. */
  lemma BlankSortRefused(st: Store)
    ensures GetAllStudents(st, None, None, Some(" "), None) == Raise(BadSort(" "))
  {
    assert Text.ParseInt("0") == Some(0);
    assert Text.ParseDigits("10") == 10 by {
      assert "10"[..1] == "1";
    }
    assert Text.ParseInt("10") == Some(10);
    assert !Text.HasText(" ");
  }

  /** A search without `query` is refused whatever the other parameters are. */
  lemma SearchNeedsQuery(st: Store, page: Option<string>, size: Option<string>,
                         sortBy: Option<string>, sortDirection: Option<string>)
    ensures SearchStudents(st, None, page, size, sortBy, sortDirection) == Raise(MissingParameter("query"))
  {
  }
}

=== FILE: student_create.dfy ===
/**
 * The create view: a two-field form that, when valid, posts a new student and goes to its
 * page, and that files a failed create as field errors or as one message.
 */
module StudentCreateView {
  import opened Wrappers
  import opened ClientHttp
  import opened StudentModel
  import opened StudentClient
  import opened StudentEditView
  import StudentEntity

  const CreateFailed := "Failed to create student. Please try again."

  /** All of the view's state, as a value. */
  datatype CreateState = CreateState(form: StudentForm, touched: bool, loading: bool, errorMessage: Option<string>,
                                     fieldErrors: Option<map<string, string>>, navigations: seq<string>)

  const InitialCreateState := CreateState(EmptyForm, false, false, None, None, [])

  /**
   * The client and the server disagree on a username of spaces: `Validators.required`
   * accepts it, so the form is submitted, while `@NotBlank` rejects it, so the server
   * reports a violation on `username` and the view shows field errors.
   */
  lemma SpacesPassOnlyTheClient(username: string, level: string, serverLevel: StudentEntity.Level)
    requires username != "" && level != ""
    requires forall i :: 0 <= i < |username| ==> username[i] == ' '
    ensures FormValid(StudentForm(username, level))
    ensures var violations := StudentEntity.Violations(StudentEntity.StudentRequest(Some(serverLevel), Some(username)));
      "username" in violations && violations["username"] == StudentEntity.UsernameRequired
  {
  }

  /**
   * A request the server accepts never trips the client's validation: a username with a
   * character above U+0020 is not empty.
   */
  lemma ServerValidIsClientValid(username: string, level: string, serverLevel: StudentEntity.Level)
    requires level != ""
    requires StudentEntity.IsValid(StudentEntity.StudentRequest(Some(serverLevel), Some(username)))
    ensures FormValid(StudentForm(username, level))
  {
    StudentEntity.ValidRequestHasFields(StudentEntity.StudentRequest(Some(serverLevel), Some(username)));
  }

  class StudentCreateComponent {
    const apiUrl: string
    var form: StudentForm
    var touched: bool
    var loading: bool
    var errorMessage: Option<string>
    var fieldErrors: Option<map<string, string>>
    var navigations: seq<string>

    function State(): CreateState
      reads this
    {
      CreateState(form, touched, loading, errorMessage, fieldErrors, navigations)
    }

    constructor (apiUrl: string)
      ensures this.apiUrl == apiUrl && State() == InitialCreateState
    {
      this.apiUrl := apiUrl;
      form := EmptyForm;
      touched := false;
      loading := false;
      errorMessage := None;
      fieldErrors := None;
      navigations := [];
    }

    /**
     * `onSubmit`: an invalid form is only marked touched; a valid one clears the previous
     * errors and posts the form's fields.
     */
    method OnSubmit() returns (call: Option<HttpCall>)
      modifies this
      ensures call.Some? <==> FormValid(old(form))
      ensures !FormValid(old(form)) ==> State() == old(State()).(touched := true)
      ensures call.Some? ==>
        && State() == old(State()).(loading := true, errorMessage := None, fieldErrors := None)
        && call.value == CreateStudent(apiUrl, RequestOf(old(form)))
    {
      if !FormValid(form) {
        touched := true;
        return None;
      }
      loading := true;
      errorMessage := None;
      fieldErrors := None;
      call := Some(CreateStudent(apiUrl, RequestOf(form)));
    }

    /**
     * The create's outcome: the new student's page is opened and `loading` stays on; a
     * failure turns `loading` off and files the error.
     */
    method OnSubmitted(outcome: Outcome<StudentResponse>)
      modifies this
      ensures outcome.Ok? ==>
        State() == old(State()).(navigations := old(navigations) + [StudentRoute(outcome.value.id)])
      ensures outcome.Fail? && ClassifySubmitError(outcome.error, CreateFailed).FieldErrors? ==>
        State() == old(State()).(loading := false,
                                 fieldErrors := Some(ClassifySubmitError(outcome.error, CreateFailed).errors))
      ensures outcome.Fail? && ClassifySubmitError(outcome.error, CreateFailed).ErrorMessage? ==>
        State() == old(State()).(loading := false,
                                 errorMessage := Some(ClassifySubmitError(outcome.error, CreateFailed).message))
    {
      match outcome
      case Ok(student) =>
        navigations := navigations + [StudentRoute(student.id)];
      case Fail(e) =>
        loading := false;
        match ClassifySubmitError(e, CreateFailed)
        case FieldErrors(errors) => fieldErrors := Some(errors);
        case ErrorMessage(message) => errorMessage := Some(message);
    }
  }
}

=== FILE: student_detail.dfy ===
/**
 * The detail view: it loads the student named by the route, and deletes it through a
 * confirmation modal, returning to the list when the delete succeeds.
 */
module StudentDetailView {
  import opened Wrappers
  import opened ClientHttp
  import opened StudentModel
  import opened StudentClient

  const DeleteFailed := "Failed to delete student."
  const DetailBadgeBase := "inline-flex px-3 py-1 text-sm font-semibold rounded-full"

  /** All of the view's state, as a value. */
  datatype DetailState = DetailState(student: Option<StudentResponse>, loading: bool, errorMessage: Option<string>,
                                     deleteModalOpen: bool, deleteLoading: bool, navigations: seq<string>)

  const InitialDetailState := DetailState(None, false, None, false, false, [])

  /** `getLevelBadgeClass` of the detail view. */
  function DetailBadgeClass(level: string): string {
    BadgeClass(DetailBadgeBase, level)
  }

  class StudentDetailComponent {
    const apiUrl: string
    var student: Option<StudentResponse>
    var loading: bool
    var errorMessage: Option<string>
    var deleteModalOpen: bool
    var deleteLoading: bool
    var navigations: seq<string>

    function State(): DetailState
      reads this
    {
      DetailState(student, loading, errorMessage, deleteModalOpen, deleteLoading, navigations)
    }

    constructor (apiUrl: string)
      ensures this.apiUrl == apiUrl && State() == InitialDetailState
    {
      this.apiUrl := apiUrl;
      student := None;
      loading := false;
      errorMessage := None;
      deleteModalOpen := false;
      deleteLoading := false;
      navigations := [];
    }

    /** `ngOnInit`: the student is requested only when `Number` of the route's id is truthy. */
    method NgOnInit(idParam: Option<string>) returns (call: Option<HttpCall>)
      modifies this
      ensures Truthy(RouteNumber(idParam)) ==>
        && State() == old(State()).(loading := true, errorMessage := None)
        && call == Some(GetStudentById(apiUrl, RouteNumber(idParam).value))
      ensures !Truthy(RouteNumber(idParam)) ==> State() == old(State()) && call.None?
    {
      var id := RouteNumber(idParam);
      if Truthy(id) {
        call := LoadStudent(id.value);
      } else {
        call := None;
      }
    }

    /** `loadStudent`: loading on, error cleared, the student requested. */
    method LoadStudent(id: int) returns (call: Option<HttpCall>)
      modifies this
      ensures State() == old(State()).(loading := true, errorMessage := None)
      ensures call == Some(GetStudentById(apiUrl, id))
    {
      loading := true;
      errorMessage := None;
      call := Some(GetStudentById(apiUrl, id));
    }

    /** The load's outcome: the student is shown, or the load error is. */
    method OnLoaded(outcome: Outcome<StudentResponse>)
      modifies this
      ensures outcome.Ok? ==> State() == old(State()).(student := Some(outcome.value), loading := false)
      ensures outcome.Fail? ==>
        State() == old(State()).(loading := false, errorMessage := Some(LoadErrorMessage(outcome.error)))
    {
      match outcome
      case Ok(s) =>
        student := Some(s);
        loading := false;
      case Fail(e) =>
        loading := false;
        errorMessage := Some(LoadErrorMessage(e));
    }

    method OpenDeleteModal()
      modifies this
      ensures State() == old(State()).(deleteModalOpen := true)
    {
      deleteModalOpen := true;
    }

    method CloseDeleteModal()
      modifies this
      ensures State() == old(State()).(deleteModalOpen := false)
    {
      deleteModalOpen := false;
    }

    /** `confirmDelete`: nothing without a loaded student; otherwise its delete is sent. */
    method ConfirmDelete() returns (call: Option<HttpCall>)
      modifies this
      ensures old(student).None? ==> call.None? && State() == old(State())
      ensures old(student).Some? ==>
        && call == Some(DeleteStudent(apiUrl, old(student).value.id))
        && State() == old(State()).(deleteLoading := true)
    {
      if student.None? {
        return None;
      }
      deleteLoading := true;
      call := Some(DeleteStudent(apiUrl, student.value.id));
    }

    /**
     * The delete's outcome: success goes back to the list (the modal is left as it is, the
     * view being left); failure shows the message and closes the modal, keeping the student.
     */
    method OnDeleteCompleted(outcome: Outcome<()>)
      modifies this
      ensures outcome.Ok? ==>
        State() == old(State()).(deleteLoading := false, navigations := old(navigations) + [StudentsRoute])
      ensures outcome.Fail? ==>
        State() == old(State()).(deleteLoading := false, deleteModalOpen := false,
                                 errorMessage := Some(MessageOr(outcome.error, DeleteFailed)))
    {
      deleteLoading := false;
      match outcome
      case Ok(_) =>
        navigations := navigations + [StudentsRoute];
      case Fail(e) =>
        errorMessage := Some(MessageOr(e, DeleteFailed));
        CloseDeleteModal();
    }
  }
}

=== FILE: student_edit.dfy ===
/**
 * The edit view: it reads the student id from the route, loads the student into a
 * two-field form, enables saving only for a valid form that differs from what was loaded,
 * and files a failed update as field errors or as one message.
 */
module StudentEditView {
  import opened Wrappers
  import opened ClientHttp
  import opened StudentModel
  import opened StudentClient

  /** The form's two controls, `username` and `level`, each `Validators.required`. */
  datatype StudentForm = StudentForm(username: string, level: string)

  const EmptyForm := StudentForm("", "")
  const UpdateFailed := "Failed to update student. Please try again."

  /** `Validators.required` on a string control: only the empty string fails. */
  predicate FormValid(form: StudentForm) {
    form.username != "" && form.level != ""
  }

  /** `isDirty`: a student is loaded and the form differs from it in some field. */
  predicate IsDirty(original: Option<StudentResponse>, form: StudentForm)
    ensures IsDirty(original, form) <==> original.Some? && form != FormOf(original.value)
  {
    original.Some? && (form.username != original.value.username || form.level != original.value.level)
  }

  /** The save button's `[disabled]`. */
  predicate SubmitDisabled(loading: bool, original: Option<StudentResponse>, form: StudentForm) {
    loading || !FormValid(form) || !IsDirty(original, form)
  }

  /** The form patched with a loaded student's fields. */
  function FormOf(student: StudentResponse): StudentForm {
    StudentForm(student.username, student.level)
  }

  /** The update body built from the form. */
  function RequestOf(form: StudentForm): StudentRequest {
    StudentRequest(form.username, form.level)
  }

  /**
   * Right after loading, the form is clean, and it is dirty exactly when it no longer
   * holds the loaded fields: dirtiness is a comparison with the loaded student.
   */
  lemma DirtyMeansChanged(student: StudentResponse, form: StudentForm)
    ensures !IsDirty(Some(student), FormOf(student))
    ensures IsDirty(Some(student), form) <==> form != FormOf(student)
  {
  }

  /** Before a student is loaded nothing can be saved, whatever the form holds. */
  lemma NothingToSaveBeforeLoad(loading: bool, form: StudentForm)
    ensures SubmitDisabled(loading, None, form)
  {
  }

  /** All of the view's state, as a value. */
  datatype EditState = EditState(
    studentId: Option<int>, originalStudent: Option<StudentResponse>, form: StudentForm, touched: bool,
    pageLoading: bool, loadError: Option<string>, loading: bool, errorMessage: Option<string>,
    fieldErrors: Option<map<string, string>>, navigations: seq<string>)

  const InitialEditState := EditState(None, None, EmptyForm, false, false, None, false, None, None, [])

  class StudentEditComponent {
    const apiUrl: string
    var studentId: Option<int>
    var originalStudent: Option<StudentResponse>
    var form: StudentForm
    var touched: bool
    var pageLoading: bool
    var loadError: Option<string>
    var loading: bool
    var errorMessage: Option<string>
    var fieldErrors: Option<map<string, string>>
    var navigations: seq<string>

    function State(): EditState
      reads this
    {
      EditState(studentId, originalStudent, form, touched, pageLoading, loadError, loading, errorMessage,
                fieldErrors, navigations)
    }

    /** A student is loaded only under an id that was truthy, so an update always has a number to go to. */
    predicate Valid()
      reads this
    {
      originalStudent.Some? ==> Truthy(studentId)
    }

    constructor (apiUrl: string)
      ensures this.apiUrl == apiUrl && State() == InitialEditState && Valid()
    {
      this.apiUrl := apiUrl;
      studentId := None;
      originalStudent := None;
      form := EmptyForm;
      touched := false;
      pageLoading := false;
      loadError := None;
      loading := false;
      errorMessage := None;
      fieldErrors := None;
      navigations := [];
    }

    /**
     * `ngOnInit` with the route's `id` parameter: the id is `Number` of it, and the student
     * is requested only when that number is truthy (neither 0 nor NaN).
     */
    method NgOnInit(idParam: Option<string>) returns (call: Option<HttpCall>)
      requires originalStudent.None?
      modifies this
      ensures Valid()
      ensures Truthy(RouteNumber(idParam)) ==>
        && State() == old(State()).(studentId := RouteNumber(idParam), pageLoading := true, loadError := None)
        && call == Some(GetStudentById(apiUrl, RouteNumber(idParam).value))
      ensures !Truthy(RouteNumber(idParam)) ==>
        State() == old(State()).(studentId := RouteNumber(idParam)) && call.None?
    {
      studentId := RouteNumber(idParam);
      if Truthy(studentId) {
        pageLoading := true;
        loadError := None;
        call := Some(GetStudentById(apiUrl, studentId.value));
      } else {
        call := None;
      }
    }

    /**
     * The load's outcome: a student is kept as the original and patched into the form; a
     * failure leaves the form as it was and sets the load error.
     */
    method OnLoaded(outcome: Outcome<StudentResponse>)
      requires Truthy(studentId)
      modifies this
      ensures Valid()
      ensures outcome.Ok? ==> State() == old(State()).(originalStudent := Some(outcome.value),
                                                     form := FormOf(outcome.value), pageLoading := false)
      ensures outcome.Fail? ==> State() == old(State()).(pageLoading := false,
                                                       loadError := Some(LoadErrorMessage(outcome.error)))
      ensures outcome.Ok? ==> !IsDirty(originalStudent, form)
    {
      match outcome
      case Ok(student) =>
        originalStudent := Some(student);
        form := FormOf(student);
        pageLoading := false;
      case Fail(e) =>
        pageLoading := false;
        loadError := Some(LoadErrorMessage(e));
    }

    /**
     * `onSubmit`: an invalid form is only marked touched; a valid form equal to the loaded
     * student sends nothing; otherwise the update of the loaded id is sent with the form's
     * fields, and the previous errors are cleared.
     */
    method OnSubmit() returns (call: Option<HttpCall>)
      requires Valid()
      modifies this
      ensures Valid()
      ensures call.Some? <==> FormValid(old(form)) && IsDirty(old(originalStudent), old(form))
      ensures !FormValid(old(form)) ==> State() == old(State()).(touched := true)
      ensures FormValid(old(form)) && !IsDirty(old(originalStudent), old(form)) ==> State() == old(State())
      ensures call.Some? ==>
        && State() == old(State()).(loading := true, errorMessage := None, fieldErrors := None)
        && call.value == UpdateStudent(apiUrl, old(studentId).value, RequestOf(old(form)))
    {
      if !FormValid(form) {
        touched := true;
        return None;
      }
      if !IsDirty(originalStudent, form) {
        return None;
      }
      loading := true;
      errorMessage := None;
      fieldErrors := None;
      call := Some(UpdateStudent(apiUrl, studentId.value, RequestOf(form)));
    }

    /**
     * The update's outcome: a saved student navigates to its page and leaves `loading` on;
     * a failure turns `loading` off and files the error.
     */
    method OnSubmitted(outcome: Outcome<StudentResponse>)
      modifies this
      ensures Valid() == old(Valid())
      ensures outcome.Ok? ==>
        State() == old(State()).(navigations := old(navigations) + [StudentRoute(outcome.value.id)])
      ensures outcome.Fail? && ClassifySubmitError(outcome.error, UpdateFailed).FieldErrors? ==>
        State() == old(State()).(loading := false,
                                 fieldErrors := Some(ClassifySubmitError(outcome.error, UpdateFailed).errors))
      ensures outcome.Fail? && ClassifySubmitError(outcome.error, UpdateFailed).ErrorMessage? ==>
        State() == old(State()).(loading := false,
                                 errorMessage := Some(ClassifySubmitError(outcome.error, UpdateFailed).message))
    {
      match outcome
      case Ok(student) =>
        navigations := navigations + [StudentRoute(student.id)];
      case Fail(e) =>
        loading := false;
        match ClassifySubmitError(e, UpdateFailed)
        case FieldErrors(errors) => fieldErrors := Some(errors);
        case ErrorMessage(message) => errorMessage := Some(message);
    }
  }
}

=== FILE: student_entity.dfy ===
/**
 * The backend's student record (the `student_tbl` entity), the request body that creates or
 * updates one, with its two validation constraints, and the response sent back.
 */
module StudentEntity {
  import opened Wrappers
  import Text

  /**
   * The backend's `Level` enumeration. Its definition is not part of this model, so its
   * members are left open; only equality between levels is used.
   */
  type Level(==, !new)

  /**
   * The JPA entity. `id` is generated by the table's identity column and is absent until
   * the entity is first saved; `username` and `level` are the non-null columns, and the
   * mapper overwrites them in place on update.
   */
  class Student {
    var id: Option<int>
    var username: string
    var level: Level

    constructor (id: Option<int>, username: string, level: Level)
      ensures this.id == id && this.username == username && this.level == level
    {
      this.id := id;
      this.username := username;
      this.level := level;
    }
  }

  /** The JSON body of a create or update; either field may be null (None) before validation. */
  datatype StudentRequest = StudentRequest(level: Option<Level>, username: Option<string>) {
    /** Both fields are present, which is all the service itself reads. */
    predicate HasFields() {
      level.Some? && username.Some?
    }
  }

  /** What every student endpoint returns. */
  datatype StudentResponse = StudentResponse(id: int, username: string, level: Level)

  const LevelRequired := "Level is required"
  const UsernameRequired := "Username is required"

  /**
   * The constraint violations of a request, field name to message: `@NotNull` on `level`
   * and `@NotBlank` on `username`. The two are checked independently, so a request can
   * violate both.
   */
  function Violations(request: StudentRequest): (v: map<string, string>)
    ensures "level" in v <==> request.level.None?
    ensures "username" in v <==> request.username.None? || Text.IsBlank(request.username.value)
    ensures "level" in v ==> v["level"] == LevelRequired
    ensures "username" in v ==> v["username"] == UsernameRequired
    ensures forall f :: f in v ==> f == "level" || f == "username"
  {
    var levelViolation := if request.level.None? then map["level" := LevelRequired] else map[];
    var usernameViolation :=
      if request.username.None? || Text.IsBlank(request.username.value)
      then map["username" := UsernameRequired] else map[];
    levelViolation + usernameViolation
  }

  /** A request passes validation when it violates no constraint. */
  predicate IsValid(request: StudentRequest) {
    Violations(request) == map[]
  }

  /** A valid request carries both fields, and its username has a character above U+0020. */
  lemma ValidRequestHasFields(request: StudentRequest)
    requires IsValid(request)
    ensures request.HasFields() && !Text.IsBlank(request.username.value)
  {
    assert "level" !in Violations(request);
    assert "username" !in Violations(request);
  }
}

=== FILE: student_list.dfy ===
/**
 * The student list view: its filter, sort and page state, the request `loadStudents`
 * sends for that state, how a response or a failure lands, and the delete modal.
 * A request is sent by returning the call; its outcome arrives later through the
 * matching completion method.
 */
module StudentListView {
  import opened Wrappers
  import opened ClientHttp
  import opened StudentModel
  import opened StudentClient
  import Text

  /** The six pagination fields the view keeps from the last page it received. */
  datatype PageInfo = PageInfo(number: int, totalPages: int, totalElements: int, size: int,
                               first: bool, last: bool)

  const InitialPageInfo := PageInfo(0, 0, 0, 10, true, true)
  const LoadFailed := "Failed to load students. Please try again."
  const DeleteFailed := "Failed to delete student. Please try again."
  const ListBadgeBase := "inline-flex px-2 py-1 text-xs font-semibold rounded-full"

  /** All of the view's state, as a value. */
  datatype ListState = ListState(
    students: seq<StudentResponse>, loading: bool, errorMessage: Option<string>, pageInfo: PageInfo,
    searchQuery: string, selectedLevel: string, sortBy: string, sortDirection: SortDirection,
    deleteModalOpen: bool, studentToDelete: Option<StudentResponse>, deleteLoading: bool)

  const InitialState := ListState([], false, None, InitialPageInfo, "", "", "id", ASC, false, None, false)

  /** The parameters every list request carries: the current page, size, sort field and direction. */
  function CurrentParams(s: ListState): QueryParams {
    QueryParams(Some(s.pageInfo.number), Some(s.pageInfo.size), Some(s.sortBy), Some(s.sortDirection))
  }

  /**
   * The request `loadStudents` sends: a search for the trimmed query when it is not empty,
   * else the level filter when a level is selected, else the plain list.
   */
  function ChooseRequest(apiUrl: string, s: ListState): (call: HttpCall)
    ensures call.verb == GET && call.body.None?
    ensures Text.Trim(s.searchQuery) != "" ==>
      call.url == SearchUrl(apiUrl) && "query" in call.params && call.params["query"] == Text.Trim(s.searchQuery)
    ensures Text.Trim(s.searchQuery) == "" && s.selectedLevel != "" ==> call.url == LevelUrl(apiUrl, s.selectedLevel)
    ensures Text.Trim(s.searchQuery) == "" && s.selectedLevel == "" ==> call.url == StudentsUrl(apiUrl)
  {
    var query := Text.Trim(s.searchQuery);
    if query != "" then StudentClient.SearchStudents(apiUrl, CurrentParams(s), query)
    else if s.selectedLevel != "" then GetStudentsByLevel(apiUrl, s.selectedLevel, CurrentParams(s))
    else GetStudents(apiUrl, CurrentParams(s))
  }

  function Toggled(d: SortDirection): SortDirection {
    if d == ASC then DESC else ASC
  }

  /** `getLevelBadgeClass` of the list. */
  function ListBadgeClass(level: string): string {
    BadgeClass(ListBadgeBase, level)
  }

  // ---------------------------------------------------------------- properties of the dispatch

  /**
   * Every request `loadStudents` sends carries the current page, size, sort field and
   * direction; the search adds the trimmed query, and the other two add nothing.
   */
  lemma ChooseRequestParams(apiUrl: string, s: ListState)
    ensures ChooseRequest(apiUrl, s).params
      == if Text.Trim(s.searchQuery) != "" then ParamsOf(CurrentParams(s))["query" := Text.Trim(s.searchQuery)]
         else ParamsOf(CurrentParams(s))
  {
  }

  /**
   * A query that is not blank wins over a selected level: the search is sent with the
   * trimmed query, and the page and size go with it (the sort too, by `ChooseRequestParams`).
   */
  lemma SearchTakesPrecedence(apiUrl: string, s: ListState)
    requires Text.Trim(s.searchQuery) != ""
    ensures var call := ChooseRequest(apiUrl, s);
      && call.url == SearchUrl(apiUrl) && call.verb == GET
      && call.params["query"] == Text.Trim(s.searchQuery)
      && call.params["page"] == Text.IntToString(s.pageInfo.number)
      && call.params["size"] == Text.IntToString(s.pageInfo.size)
  {
  }

  /** A blank query (whitespace only) counts as no query: the level filter or the plain list is sent. */
  lemma BlankQueryIgnored(apiUrl: string, s: ListState)
    requires forall i :: 0 <= i < |s.searchQuery| ==> Text.IsJsWhitespace(s.searchQuery[i])
    ensures s.selectedLevel != "" ==> ChooseRequest(apiUrl, s).url == LevelUrl(apiUrl, s.selectedLevel)
    ensures s.selectedLevel == "" ==> ChooseRequest(apiUrl, s).url == StudentsUrl(apiUrl)
    ensures "query" !in ChooseRequest(apiUrl, s).params
  {
  }

  /** With no query and no level, the plain list is requested with the current page, size and sort. */
  lemma UnfilteredRequestsList(apiUrl: string, s: ListState)
    requires s.searchQuery == "" && s.selectedLevel == ""
    ensures ChooseRequest(apiUrl, s) == GetStudents(apiUrl, CurrentParams(s))
  {
    assert Text.Trim(s.searchQuery) == "";
  }

  /** The parameters of page 0 of 10 by id, ascending. */
  lemma FirstPageParams()
    ensures ParamsOf(QueryParams(Some(0), Some(10), Some("id"), Some(ASC)))
         == map["page" := "0", "size" := "10", "sortBy" := "id", "sortDirection" := "ASC"]
  {
    assert Text.IntToString(0) == "0";
    assert Text.IntToString(10) == "10" by {
      assert Text.NatToString(10) == Text.NatToString(1) + [Text.DigitChar(0)];
    }
  }

  /** The first load asks for page 0 of 10 by id, ascending, with no filter. */
  lemma FirstLoad(apiUrl: string)
    ensures ChooseRequest(apiUrl, InitialState).url == StudentsUrl(apiUrl)
    ensures ChooseRequest(apiUrl, InitialState).params
         == map["page" := "0", "size" := "10", "sortBy" := "id", "sortDirection" := "ASC"]
  {
    UnfilteredRequestsList(apiUrl, InitialState);
    FirstPageParams();
  }

  /** Without a query, whatever the level, the request is never a search. */
  lemma NoQueryNoSearch(apiUrl: string, s: ListState)
    requires s.searchQuery == ""
    ensures ChooseRequest(apiUrl, s).url != SearchUrl(apiUrl)
  {
    assert Text.Trim(s.searchQuery) == "";
    var k := |StudentsUrl(apiUrl)| + 1;
    if s.selectedLevel != "" {
      assert LevelUrl(apiUrl, s.selectedLevel)[k] == 'l';
      assert SearchUrl(apiUrl)[k] == 's';
    } else {
      assert |StudentsUrl(apiUrl)| < |SearchUrl(apiUrl)|;
    }
  }

  /** Toggling twice restores the direction; a toggle always changes it. */
  lemma ToggleTwice(d: SortDirection)
    ensures Toggled(Toggled(d)) == d && Toggled(d) != d
  {
  }

  // ---------------------------------------------------------------- the view object

  class StudentListComponent {
    const apiUrl: string
    var students: seq<StudentResponse>
    var loading: bool
    var errorMessage: Option<string>
    var pageInfo: PageInfo
    var searchQuery: string
    var selectedLevel: string
    var sortBy: string
    var sortDirection: SortDirection
    var deleteModalOpen: bool
    var studentToDelete: Option<StudentResponse>
    var deleteLoading: bool

    function State(): ListState
      reads this
    {
      ListState(students, loading, errorMessage, pageInfo, searchQuery, selectedLevel, sortBy, sortDirection,
                deleteModalOpen, studentToDelete, deleteLoading)
    }

    constructor (apiUrl: string)
      ensures this.apiUrl == apiUrl && State() == InitialState
    {
      this.apiUrl := apiUrl;
      students := [];
      loading := false;
      errorMessage := None;
      pageInfo := InitialPageInfo;
      searchQuery := "";
      selectedLevel := "";
      sortBy := "id";
      sortDirection := ASC;
      deleteModalOpen := false;
      studentToDelete := None;
      deleteLoading := false;
    }

    /** `loadStudents`: loading on, error cleared, and the request for the current filters sent. */
    method LoadStudents() returns (call: HttpCall)
      modifies this
      ensures State() == old(State()).(loading := true, errorMessage := None)
      ensures call == ChooseRequest(apiUrl, State())
    {
      ghost var before := State();
      loading := true;
      errorMessage := None;
      assert State() == before.(loading := true, errorMessage := None);
      call := ChooseRequest(apiUrl, State());
    }

    /**
     * The list request's outcome: a page replaces the students and the six pagination
     * fields; a failure keeps both and shows the server message or the fallback.
     */
    method OnStudentsLoaded(outcome: Outcome<PageResponse>)
      modifies this
      ensures outcome.Ok? ==> var r := outcome.value;
        State() == old(State()).(students := r.content, loading := false,
          pageInfo := PageInfo(r.number, r.totalPages, r.totalElements, r.size, r.first, r.last))
      ensures outcome.Fail? ==>
        State() == old(State()).(loading := false, errorMessage := Some(MessageOr(outcome.error, LoadFailed)))
    {
      match outcome
      case Ok(r) =>
        students := r.content;
        pageInfo := PageInfo(r.number, r.totalPages, r.totalElements, r.size, r.first, r.last);
        loading := false;
      case Fail(e) =>
        loading := false;
        errorMessage := Some(MessageOr(e, LoadFailed));
    }

    /** `onSearch` with the query the input holds: back to page 0, level and size kept. */
    method OnSearch(query: string) returns (call: HttpCall)
      modifies this
      ensures State() == old(State()).(searchQuery := query, pageInfo := old(pageInfo).(number := 0),
                                       loading := true, errorMessage := None)
      ensures call == ChooseRequest(apiUrl, State())
    {
      ghost var before := State();
      searchQuery := query;
      pageInfo := pageInfo.(number := 0);
      assert State() == before.(searchQuery := query, pageInfo := before.pageInfo.(number := 0));
      call := LoadStudents();
    }

    /** `onLevelChange` with the level the select holds: the query is cleared, back to page 0. */
    method OnLevelChange(level: string) returns (call: HttpCall)
      modifies this
      ensures State() == old(State()).(selectedLevel := level, searchQuery := "",
                                       pageInfo := old(pageInfo).(number := 0), loading := true, errorMessage := None)
      ensures call == ChooseRequest(apiUrl, State())
      ensures call.url != SearchUrl(apiUrl)
    {
      ghost var before := State();
      selectedLevel := level;
      searchQuery := "";
      pageInfo := pageInfo.(number := 0);
      assert State() == before.(selectedLevel := level, searchQuery := "", pageInfo := before.pageInfo.(number := 0));
      call := LoadStudents();
      NoQueryNoSearch(apiUrl, State());
    }

    /** `onSortChange` with the field the select holds: the page is kept. */
    method OnSortChange(field: string) returns (call: HttpCall)
      modifies this
      ensures State() == old(State()).(sortBy := field, loading := true, errorMessage := None)
      ensures call == ChooseRequest(apiUrl, State())
    {
      ghost var before := State();
      sortBy := field;
      assert State() == before.(sortBy := field);
      call := LoadStudents();
    }

    /** `toggleSortDirection`: ASC and DESC swap; the page is kept. */
    method ToggleSortDirection() returns (call: HttpCall)
      modifies this
      ensures State() == old(State()).(sortDirection := Toggled(old(sortDirection)), loading := true, errorMessage := None)
      ensures call == ChooseRequest(apiUrl, State())
    {
      ghost var before := State();
      sortDirection := if sortDirection == ASC then DESC else ASC;
      assert State() == before.(sortDirection := Toggled(before.sortDirection));
      call := LoadStudents();
    }

    /** `resetFilters`: query and level cleared, sort back to id ascending, page 0; size kept. */
    method ResetFilters() returns (call: HttpCall)
      modifies this
      ensures State() == old(State()).(searchQuery := "", selectedLevel := "", sortBy := "id", sortDirection := ASC,
                                       pageInfo := old(pageInfo).(number := 0), loading := true, errorMessage := None)
      ensures call == GetStudents(apiUrl, QueryParams(Some(0), Some(old(pageInfo).size), Some("id"), Some(ASC)))
    {
      ghost var before := State();
      searchQuery := "";
      selectedLevel := "";
      sortBy := "id";
      sortDirection := ASC;
      pageInfo := pageInfo.(number := 0);
      assert State() == before.(searchQuery := "", selectedLevel := "", sortBy := "id", sortDirection := ASC,
                                pageInfo := before.pageInfo.(number := 0));
      call := LoadStudents();
      UnfilteredRequestsList(apiUrl, State());
    }

    /** `onPageChange`: only the page number changes before the reload. */
    method OnPageChange(page: int) returns (call: HttpCall)
      modifies this
      ensures State() == old(State()).(pageInfo := old(pageInfo).(number := page), loading := true, errorMessage := None)
      ensures call == ChooseRequest(apiUrl, State())
    {
      ghost var before := State();
      pageInfo := pageInfo.(number := page);
      assert State() == before.(pageInfo := before.pageInfo.(number := page));
      call := LoadStudents();
    }

    method OpenDeleteModal(student: StudentResponse)
      modifies this
      ensures State() == old(State()).(studentToDelete := Some(student), deleteModalOpen := true)
    {
      studentToDelete := Some(student);
      deleteModalOpen := true;
    }

    method CloseDeleteModal()
      modifies this
      ensures State() == old(State()).(deleteModalOpen := false, studentToDelete := None)
    {
      deleteModalOpen := false;
      studentToDelete := None;
    }

    /** `confirmDelete`: nothing without a target; otherwise the delete of the target is sent. */
    method ConfirmDelete() returns (call: Option<HttpCall>)
      modifies this
      ensures old(studentToDelete).None? ==> call.None? && State() == old(State())
      ensures old(studentToDelete).Some? ==>
        && call == Some(DeleteStudent(apiUrl, old(studentToDelete).value.id))
        && State() == old(State()).(deleteLoading := true)
    {
      if studentToDelete.None? {
        return None;
      }
      deleteLoading := true;
      call := Some(DeleteStudent(apiUrl, studentToDelete.value.id));
    }

    /**
     * The delete's outcome: success closes the modal and reloads the list; failure shows
     * the server message or the fallback and closes the modal without reloading.
     */
    method OnDeleteCompleted(outcome: Outcome<()>) returns (reload: Option<HttpCall>)
      modifies this
      ensures outcome.Ok? ==>
        && State() == old(State()).(deleteLoading := false, deleteModalOpen := false, studentToDelete := None,
                                    loading := true, errorMessage := None)
        && reload == Some(ChooseRequest(apiUrl, State()))
      ensures outcome.Fail? ==>
        && State() == old(State()).(deleteLoading := false, deleteModalOpen := false, studentToDelete := None,
                                    errorMessage := Some(MessageOr(outcome.error, DeleteFailed)))
        && reload.None?
    {
      deleteLoading := false;
      match outcome
      case Ok(_) =>
        CloseDeleteModal();
        var call := LoadStudents();
        reload := Some(call);
      case Fail(e) =>
        errorMessage := Some(MessageOr(e, DeleteFailed));
        CloseDeleteModal();
        reload := None;
    }
  }
}

=== FILE: student_mapper.dfy ===
/** Conversions between the student request, the entity and the response. */
module StudentMapper {
  import opened Wrappers
  import opened StudentEntity

  /** A new, unsaved entity carrying the request's username and level; the id is left for the store. */
  method ToEntity(request: StudentRequest) returns (student: Student)
    requires request.HasFields()
    ensures fresh(student)
    ensures student.id == None
    ensures student.username == request.username.value && student.level == request.level.value
  {
    student := new Student(None, request.username.value, request.level.value);
  }

  /** The response for a saved entity: its id, username and level, unchanged. */
  function ToResponse(student: Student): (response: StudentResponse)
    requires student.id.Some?
    reads student
    ensures response.id == student.id.value
    ensures response.username == student.username && response.level == student.level
  {
    StudentResponse(student.id.value, student.username, student.level)
  }

  /** Overwrites the entity's username and level with the request's, in place; the id is untouched. */
  method UpdateEntity(student: Student, request: StudentRequest)
    requires request.HasFields()
    modifies student
    ensures student.id == old(student.id)
    ensures student.username == request.username.value && student.level == request.level.value
  {
    student.username := request.username.value;
    student.level := request.level.value;
  }
}

=== FILE: student_model.dfy ===
/** The client's student types: the level enumeration, request and response bodies, and the page envelope. */
module StudentModel {
  import opened Wrappers
  import Text

  /** `StudentLevel`: three members, each valued by its own name. */
  datatype StudentLevel = BACHELOR | MASTER | PHD

  function LevelValue(level: StudentLevel): string {
    match level
    case BACHELOR => "BACHELOR"
    case MASTER => "MASTER"
    case PHD => "PHD"
  }

  /** The member whose value is `s`, if any. */
  function ParseLevel(s: string): (level: Option<StudentLevel>)
    ensures level.Some? ==> LevelValue(level.value) == s
  {
    if s == "BACHELOR" then Some(BACHELOR)
    else if s == "MASTER" then Some(MASTER)
    else if s == "PHD" then Some(PHD)
    else None
  }

  /** Every member is found again from its value, and no two members share a value. */
  lemma LevelValueRoundTrip(level: StudentLevel, other: StudentLevel)
    ensures ParseLevel(LevelValue(level)) == Some(level)
    ensures LevelValue(level) == LevelValue(other) ==> level == other
  {
  }

  /** The strings that are member values are exactly the three names. */
  lemma ParseLevelExactly(s: string)
    ensures ParseLevel(s).Some? <==> s in {"BACHELOR", "MASTER", "PHD"}
  {
  }

  /** The body of a create or update; `level` is typed to admit any string. */
  datatype StudentRequest = StudentRequest(username: string, level: string)

  /** One student as the server returns it. */
  datatype StudentResponse = StudentResponse(id: int, username: string, level: string)

  /** The page envelope of the list, search and level endpoints. */
  datatype PageResponse = PageResponse(content: seq<StudentResponse>, totalElements: int, totalPages: int,
                                       size: int, number: int, first: bool, last: bool)

  // ---------------------------------------------------------------- level badges

  /** The colour classes of a level's badge; anything but the three members is gray. */
  function LevelColour(level: string): string {
    if level == "BACHELOR" then "bg-blue-100 text-blue-800"
    else if level == "MASTER" then "bg-purple-100 text-purple-800"
    else if level == "PHD" then "bg-green-100 text-green-800"
    else "bg-gray-100 text-gray-800"
  }

  /** `getLevelBadgeClass`: the view's base classes, then the level's colour. */
  function BadgeClass(base: string, level: string): string {
    base + " " + LevelColour(level)
  }

  /**
   * The three members get three different colours, none of them the default, and every
   * other string gets the default.
   */
  lemma BadgeColoursDistinct(a: StudentLevel, b: StudentLevel, other: string)
    requires ParseLevel(other).None?
    ensures a != b ==> LevelColour(LevelValue(a)) != LevelColour(LevelValue(b))
    ensures LevelColour(LevelValue(a)) != LevelColour(other)
    ensures LevelColour(other) == "bg-gray-100 text-gray-800"
  {
  }

  // ---------------------------------------------------------------- routes

  const StudentsRoute := "/students"

  /** The route of one student's page, as `navigate(['/students', id])` builds it. */
  function StudentRoute(id: int): string {
    StudentsRoute + "/" + Text.IntToString(id)
  }
}

=== FILE: student_repository.dfy ===
/**
 * The student table and the repository's queries over it: lookup by id and by username,
 * the level filter, and the username-or-id search.
 */
module StudentRepository {
  import opened Wrappers
  import opened StudentEntity
  import Text
  import SqlLike

  /** One row of `student_tbl`, without its key. */
  datatype Row = Row(username: string, level: Level)

  /** The table's contents: rows by id, and the next value the identity column hands out. */
  datatype Store = Store(rows: map<int, Row>, nextId: int) {
    /** Ids are positive and every id in use is below the next one to be generated. */
    predicate WellFormed() {
      1 <= nextId && forall id :: id in rows ==> 1 <= id < nextId
    }

    /** The unique constraint on the username column: no two rows share a username. */
    predicate UniqueUsernames() {
      forall i, j :: i in rows && j in rows && rows[i].username == rows[j].username ==> i == j
    }
  }

  /** An empty table whose identity column starts at 1. */
  const EmptyStore := Store(map[], 1)

  /** The ids of the rows whose username equals `username` exactly (`findByUsername`). */
  function IdsWithUsername(st: Store, username: string): (ids: set<int>)
    ensures ids <= st.rows.Keys
    ensures forall id :: id in ids ==> st.rows[id].username == username
    ensures forall id :: id in st.rows && st.rows[id].username == username ==> id in ids
  {
    set id | id in st.rows && st.rows[id].username == username
  }

  /** The ids of the rows whose level equals `level` (`findByLevel`). */
  function IdsWithLevel(st: Store, level: Level): (ids: set<int>)
    ensures ids <= st.rows.Keys
    ensures forall id :: id in ids ==> st.rows[id].level == level
    ensures forall id :: id in st.rows && st.rows[id].level == level ==> id in ids
  {
    set id | id in st.rows && st.rows[id].level == level
  }

  /** Under the unique constraint, `findByUsername` has at most one row to return. */
  lemma AtMostOneWithUsername(st: Store, username: string)
    requires st.UniqueUsernames()
    ensures |IdsWithUsername(st, username)| <= 1
  {
    var ids := IdsWithUsername(st, username);
    if exists id :: id in st.rows && st.rows[id].username == username {
      var id :| id in st.rows && st.rows[id].username == username;
      forall other | other in ids ensures other == id {
        assert st.rows[other].username == st.rows[id].username;
      }
      assert ids == {id};
    }
  }

  // ---------------------------------------------------------------- search

  /**
   * The search predicate of `searchByUsernameOrId` as the query is written: the raw search
   * string is spliced between two `%` into `LIKE` patterns, once lower-cased against the
   * lower-cased username and once as is against the id's decimal text.
   */
  predicate SearchMatchesAsWritten(id: int, username: string, search: string) {
    || SqlLike.Like(Text.ToLower(username), Text.ToLower("%" + search + "%"))
    || SqlLike.Like(Text.IntToString(id), "%" + search + "%")
  }

  /**
   * The search the query is meant to perform: the lower-cased username contains the
   * lower-cased search string, or the id's decimal text contains the search string.
   */
  predicate SearchMatches(id: int, username: string, search: string) {
    || Text.Contains(Text.ToLower(username), Text.ToLower(search))
    || Text.Contains(Text.IntToString(id), search)
  }

  /** Lower-casing neither creates nor removes a wildcard character. */
  lemma ToLowerKeepsNoWildcards(q: string)
    requires SqlLike.NoWildcards(q)
    ensures SqlLike.NoWildcards(Text.ToLower(q))
  {
  }

  /** On a search string without `%` or `_`, the query as written is the intended search. */
  lemma SearchAsWrittenAgreesWithoutWildcards(id: int, username: string, search: string)
    requires SqlLike.NoWildcards(search)
    ensures SearchMatchesAsWritten(id, username, search) == SearchMatches(id, username, search)
  {
    var lowered := Text.ToLower(search);
    assert Text.ToLower("%" + search + "%") == "%" + lowered + "%";
    ToLowerKeepsNoWildcards(search);
    SqlLike.LikeIsContains(Text.ToLower(username), lowered);
    SqlLike.LikeIsContains(Text.IntToString(id), search);
  }

  /** As written, the search string "%" matches every row, whatever its username and id. */
  lemma PercentSearchMatchesEveryRow(id: int, username: string)
    ensures SearchMatchesAsWritten(id, username, "%")
  {
    var s := Text.ToLower(username);
    assert Text.ToLower("%" + "%" + "%") == "%%%";
    assert "%%%"[1..] == "%%" && "%%"[1..] == "%";
    SqlLike.LikePercentMatchesAll(s);
    assert SqlLike.Like(s, "%%");
  }

  /** The ids of the rows the intended search matches. */
  function IdsMatching(st: Store, search: string): (ids: set<int>)
    ensures ids <= st.rows.Keys
    ensures forall id :: id in ids ==> SearchMatches(id, st.rows[id].username, search)
    ensures forall id :: id in st.rows && SearchMatches(id, st.rows[id].username, search) ==> id in ids
  {
    set id | id in st.rows && SearchMatches(id, st.rows[id].username, search)
  }

  /** The ids of the rows the query as written matches. */
  function IdsMatchingAsWritten(st: Store, search: string): set<int> {
    set id | id in st.rows && SearchMatchesAsWritten(id, st.rows[id].username, search)
  }

  /** The two searches select the same rows whenever the search string has no wildcard. */
  lemma IdsMatchingAgreeWithoutWildcards(st: Store, search: string)
    requires SqlLike.NoWildcards(search)
    ensures IdsMatchingAsWritten(st, search) == IdsMatching(st, search)
  {
    forall id | id in st.rows
      ensures SearchMatchesAsWritten(id, st.rows[id].username, search)
           == SearchMatches(id, st.rows[id].username, search)
    {
      SearchAsWrittenAgreesWithoutWildcards(id, st.rows[id].username, search);
    }
  }

  /** As written, searching "%" returns the whole table. */
  lemma PercentSearchReturnsEveryRow(st: Store)
    ensures IdsMatchingAsWritten(st, "%") == st.rows.Keys
  {
    forall id | id in st.rows
      ensures SearchMatchesAsWritten(id, st.rows[id].username, "%")
    {
      PercentSearchMatchesEveryRow(id, st.rows[id].username);
    }
  }

  /** A one-character string occurs in `s` exactly when that character does. */
  lemma ContainsOneChar(s: string, c: char)
    ensures Text.Contains(s, [c]) <==> c in s
  {
    if c in s {
      var i :| 0 <= i < |s| && s[i] == c;
      assert Text.IsPrefix([c], s[i..]);
    }
    if Text.Contains(s, [c]) {
      var i :| 0 <= i <= |s| && Text.IsPrefix([c], s[i..]);
      assert s[i..][0] == s[i];
    }
  }

  /**
   * The intended search for "%" finds exactly the rows whose username holds a `%`: the
   * decimal text of an id never does. A table without such a username yields nothing.
   */
  lemma PercentSearchIntendedFindsPercentNames(st: Store)
    ensures IdsMatching(st, "%") == set id | id in st.rows && '%' in st.rows[id].username
    ensures (forall id :: id in st.rows ==> '%' !in st.rows[id].username) ==> IdsMatching(st, "%") == {}
  {
    assert Text.ToLower("%") == "%";
    forall id | id in st.rows
      ensures SearchMatches(id, st.rows[id].username, "%") <==> '%' in st.rows[id].username
    {
      var u := st.rows[id].username;
      var lowered := Text.ToLower(u);
      ContainsOneChar(lowered, '%');
      ContainsOneChar(Text.IntToString(id), '%');
      Text.IntToStringChars(id);
      if '%' in lowered {
        var k :| 0 <= k < |lowered| && lowered[k] == '%';
        assert u[k] == '%';
      }
      if '%' in u {
        var k :| 0 <= k < |u| && u[k] == '%';
        assert lowered[k] == '%';
      }
    }
  }

  // ---------------------------------------------------------------- the repository object

  /** The JPA repository: the table's rows and its identity counter, updated by `save` and `deleteById`. */
  class StudentRepository {
    var rows: map<int, Row>
    var nextId: int

    /** The table as a value. */
    function Snapshot(): Store
      reads this
    {
      Store(rows, nextId)
    }

    ghost predicate Valid()
      reads this
    {
      Snapshot().WellFormed()
    }

    constructor ()
      ensures Valid() && Snapshot() == EmptyStore
    {
      rows := map[];
      nextId := 1;
    }

    /** `existsById`: whether the table holds a row under the id; an id the counter has not handed out never does. */
    predicate ExistsById(id: int)
      reads this
      ensures ExistsById(id) <==> id in Snapshot().rows
      ensures Snapshot().WellFormed() && !(1 <= id < nextId) ==> !ExistsById(id)
    {
      id in rows
    }

    /** `findById`: a managed entity loaded from the row with that id, or nothing. */
    method FindById(id: int) returns (student: Option<Student>)
      ensures student.Some? <==> id in rows
      ensures student.Some? ==> fresh(student.value) && student.value.id == Some(id)
      ensures student.Some? ==> student.value.username == rows[id].username
      ensures student.Some? ==> student.value.level == rows[id].level
    {
      if id in rows {
        var s := new Student(Some(id), rows[id].username, rows[id].level);
        student := Some(s);
      } else {
        student := None;
      }
    }

    /** `findAll`: every row, under its key. */
    method FindAll() returns (found: map<int, Row>)
      ensures found.Keys == rows.Keys
      ensures forall id :: id in found ==> found[id] == rows[id]
    {
      found := rows;
    }

    /** `findByLevel`: the rows at `level`, under their keys. */
    method FindByLevel(level: Level) returns (found: map<int, Row>)
      ensures found.Keys == IdsWithLevel(Snapshot(), level)
      ensures forall id :: id in found ==> found[id] == rows[id]
    {
      found := map id | id in rows && rows[id].level == level :: rows[id];
    }

    /** `searchByUsernameOrId`: the rows the query matches, as it is written, under their keys. */
    method SearchByUsernameOrId(search: string) returns (found: map<int, Row>)
      ensures found.Keys == IdsMatchingAsWritten(Snapshot(), search)
      ensures forall id :: id in found ==> found[id] == rows[id]
    {
      found := map id | id in rows && SearchMatchesAsWritten(id, rows[id].username, search) :: rows[id];
    }

    /** `findByUsername`: an entity loaded from a row whose username equals `username`, or nothing. */
    method FindByUsername(username: string) returns (student: Option<Student>)
      ensures student.None? <==> IdsWithUsername(Snapshot(), username) == {}
      ensures student.Some? ==> fresh(student.value) && student.value.id.Some?
      ensures student.Some? ==> student.value.id.value in IdsWithUsername(Snapshot(), username)
      ensures student.Some? ==> student.value.username == username
      ensures student.Some? ==> student.value.level == rows[student.value.id.value].level
    {
      if exists id :: id in rows && rows[id].username == username {
        var id :| id in rows && rows[id].username == username;
        var s := new Student(Some(id), username, rows[id].level);
        student := Some(s);
      } else {
        student := None;
      }
    }

    /**
     * `save`: a new entity gets the next generated id and is inserted; an entity with an id
     * overwrites the row with that id. Either way the entity's fields become the row.
     */
    method Save(student: Student) returns (saved: Student)
      requires Valid()
      requires student.id.Some? ==> student.id.value in rows
      modifies this, student
      ensures Valid()
      ensures saved == student && student.id.Some?
      ensures old(student.id).None? ==> student.id == Some(old(nextId)) && nextId == old(nextId) + 1
      ensures old(student.id).Some? ==> student.id == old(student.id) && nextId == old(nextId)
      ensures student.username == old(student.username) && student.level == old(student.level)
      ensures rows == old(rows)[student.id.value := Row(student.username, student.level)]
    {
      if student.id.None? {
        student.id := Some(nextId);
        nextId := nextId + 1;
      }
      rows := rows[student.id.value := Row(student.username, student.level)];
      saved := student;
    }

    /** `deleteById`: the row with that id is gone; nothing else changes. */
    method DeleteById(id: int)
      requires Valid()
      modifies this
      ensures Valid()
      ensures rows == old(rows) - {id} && nextId == old(nextId)
    {
      rows := rows - {id};
    }
  }
}

=== FILE: student_service.dfy ===
/**
 * The student service: lookup, create, update, delete, search and the level filter, each
 * first as a function of the table (what the operation does) and then as a method of the
 * service object that carries it out through the repository.
 */
module StudentService {
  import opened Wrappers
  import opened StudentEntity
  import opened StudentRepository
  import StudentMapper
  import Text
  import SqlLike

  /** The two exceptions the service throws, and the message each carries. */
  datatype StudentError = NotFound(id: int) | Duplicate(username: string) {
    function Message(): string {
      match this
      case NotFound(id) => "Student not found with id: " + Text.IntToString(id)
      case Duplicate(username) => "Student with username '" + username + "' already exists"
    }
  }

  /**
   * The message determines the exception: the two kinds read differently, a not-found
   * message names exactly one id and a duplicate message exactly one username.
   */
  lemma MessageIdentifiesError(a: StudentError, b: StudentError)
    requires a.Message() == b.Message()
    ensures a == b
  {
    var m := a.Message();
    KindReadsAtEight(a);
    KindReadsAtEight(b);
    if a.NotFound? && b.NotFound? {
      var k := |"Student not found with id: "|;
      assert m[k..] == Text.IntToString(a.id);
      assert b.Message()[k..] == Text.IntToString(b.id);
      Text.IntToStringInjective(a.id, b.id);
    } else if a.Duplicate? && b.Duplicate? {
      var k := |"Student with username '"|;
      assert |a.username| == |b.username|;
      assert m[k..k + |a.username|] == a.username;
      assert b.Message()[k..k + |b.username|] == b.username;
    }
  }

  /** The ninth character of a message tells the two kinds apart. */
  lemma KindReadsAtEight(e: StudentError)
    ensures |e.Message()| > 8 && e.Message()[8] == if e.NotFound? then 'n' else 'w'
  {
  }

  /** The invariant the service keeps: a well-formed table without two rows of the same username. */
  predicate Consistent(st: Store) {
    st.WellFormed() && st.UniqueUsernames()
  }

  /** A row other than `id` holds `username`. */
  predicate TakenByOther(st: Store, id: int, username: string) {
    exists other :: other in st.rows && other != id && st.rows[other].username == username
  }

  /** The response for the row with key `id`. */
  function ResponseOf(st: Store, id: int): StudentResponse
    requires id in st.rows
  {
    StudentResponse(id, st.rows[id].username, st.rows[id].level)
  }

  // ---------------------------------------------------------------- the operations as functions

  /** `getStudentById`: the row's response, or NotFound. */
  function Get(st: Store, id: int): (r: Result<StudentResponse, StudentError>)
    ensures r.Failure? <==> id !in st.rows
    ensures r.Failure? ==> r.error == NotFound(id)
    ensures r.Success? ==> r.value.id == id && st.rows[id] == Row(r.value.username, r.value.level)
  {
    if id in st.rows then Success(ResponseOf(st, id)) else Failure(NotFound(id))
  }

  /**
   * `createStudent`: refused when some row already has the username; otherwise the row is
   * inserted under the next generated id.
   */
  function Create(st: Store, request: StudentRequest): (out: (Store, Result<StudentResponse, StudentError>))
    requires request.HasFields()
    ensures out.1.Failure? <==> IdsWithUsername(st, request.username.value) != {}
    ensures out.1.Failure? ==> out.0 == st && out.1.error == Duplicate(request.username.value)
    ensures out.1.Success? ==> out.1.value.id == st.nextId && out.0.nextId == st.nextId + 1
    ensures out.1.Success? ==> out.0.rows.Keys == st.rows.Keys + {st.nextId}
    ensures out.1.Success? ==> IdsWithUsername(out.0, request.username.value) == {st.nextId}
    ensures out.1.Success? ==> out.0.rows[st.nextId] == Row(request.username.value, request.level.value)
    ensures out.1.Success? ==>
      out.0 == Store(st.rows[st.nextId := Row(request.username.value, request.level.value)], st.nextId + 1)
  {
    var username := request.username.value;
    if IdsWithUsername(st, username) != {} then (st, Failure(Duplicate(username)))
    else
      var row := Row(username, request.level.value);
      (Store(st.rows[st.nextId := row], st.nextId + 1),
       Success(StudentResponse(st.nextId, username, request.level.value)))
  }

  /**
   * `updateStudent`: NotFound when the id has no row; Duplicate when another row holds the
   * requested username; otherwise the row's username and level are overwritten.
   */
  function Update(st: Store, id: int, request: StudentRequest): (out: (Store, Result<StudentResponse, StudentError>))
    requires request.HasFields()
    ensures out.0.rows.Keys == st.rows.Keys && out.0.nextId == st.nextId
    ensures forall k :: k in st.rows && k != id ==> out.0.rows[k] == st.rows[k]
    ensures out.1.Failure? ==> out.0 == st
    ensures out.1.Success? ==> out.1.value.id == id && id in out.0.rows && out.0.rows[id] == Row(out.1.value.username, out.1.value.level)
  {
    var username := request.username.value;
    if id !in st.rows then (st, Failure(NotFound(id)))
    else if TakenByOther(st, id, username) then (st, Failure(Duplicate(username)))
    else
      var row := Row(username, request.level.value);
      (Store(st.rows[id := row], st.nextId), Success(StudentResponse(id, username, request.level.value)))
  }

  /** `deleteStudent`: NotFound when the id has no row; otherwise the row is removed. */
  function Delete(st: Store, id: int): (out: (Store, Result<(), StudentError>))
    ensures out.1.Success? <==> id in st.rows
    ensures out.1.Failure? ==> out.0 == st && out.1.error == NotFound(id)
    ensures out.0.rows.Keys == st.rows.Keys - {id} && out.0.nextId == st.nextId
    ensures forall k :: k in out.0.rows ==> out.0.rows[k] == st.rows[k]
  {
    if id !in st.rows then (st, Failure(NotFound(id)))
    else (Store(st.rows - {id}, st.nextId), Success(()))
  }

  /** `getAllStudents`: one response per row, and nothing else. */
  function AllStudents(st: Store): (all: set<StudentResponse>)
    ensures forall r :: r in all <==> r.id in st.rows && st.rows[r.id] == Row(r.username, r.level)
  {
    set id | id in st.rows :: ResponseOf(st, id)
  }

  /** `getStudentsByLevel`: the responses of exactly the rows at that level. */
  function StudentsByLevel(st: Store, level: Level): (found: set<StudentResponse>)
    ensures forall r :: r in found <==> r in AllStudents(st) && r.level == level
  {
    set id | id in IdsWithLevel(st, level) :: ResponseOf(st, id)
  }

  /**
   * `searchStudents`: the responses of exactly the rows the repository's query matches as it
   * is written, with `%` and `_` in the search string acting as wildcards.
   */
  function SearchResults(st: Store, search: string): (found: set<StudentResponse>)
    ensures forall r :: r in found <==> r in AllStudents(st) && SearchMatchesAsWritten(r.id, r.username, search)
  {
    set id | id in IdsMatchingAsWritten(st, search) :: ResponseOf(st, id)
  }

  /**
   * The search the service is meant to offer: the responses of exactly the rows whose
   * lower-cased username contains the lower-cased search string or whose id's decimal text
   * contains it.
   */
  function IntendedSearchResults(st: Store, search: string): (found: set<StudentResponse>)
    ensures forall r :: r in found <==> r in AllStudents(st) && SearchMatches(r.id, r.username, search)
  {
    set id | id in IdsMatching(st, search) :: ResponseOf(st, id)
  }

  /** On a search string without `%` or `_`, the search as written is the intended one. */
  lemma SearchResultsWithoutWildcards(st: Store, search: string)
    requires SqlLike.NoWildcards(search)
    ensures SearchResults(st, search) == IntendedSearchResults(st, search)
  {
    forall r | r in AllStudents(st)
      ensures SearchMatchesAsWritten(r.id, r.username, search) == SearchMatches(r.id, r.username, search)
    {
      SearchAsWrittenAgreesWithoutWildcards(r.id, r.username, search);
    }
  }

  // ---------------------------------------------------------------- properties

  /** Creating keeps the table consistent: the new id was free and the username unused. */
  lemma CreateKeepsConsistent(st: Store, request: StudentRequest)
    requires Consistent(st) && request.HasFields()
    ensures Consistent(Create(st, request).0)
  {
    var (st', r) := Create(st, request);
    if r.Success? {
      forall i, j | i in st'.rows && j in st'.rows && st'.rows[i].username == st'.rows[j].username
        ensures i == j
      {
      }
    }
  }

  /** A created student gets an id no row had, and can then be read back as created. */
  lemma CreateThenGet(st: Store, request: StudentRequest)
    requires Consistent(st) && request.HasFields()
    requires Create(st, request).1.Success?
    ensures Create(st, request).1.value.id !in st.rows
    ensures Get(Create(st, request).0, Create(st, request).1.value.id) == Create(st, request).1
  {
  }

  /** A create fails exactly when the username is already taken, and then nothing changes. */
  lemma CreateFailsOnlyOnDuplicate(st: Store, request: StudentRequest)
    requires request.HasFields()
    ensures Create(st, request).1.Failure?
        <==> exists id :: id in st.rows && st.rows[id].username == request.username.value
    ensures Create(st, request).1.Failure? ==> Create(st, request).0 == st
  {
    var u := request.username.value;
    if exists id :: id in st.rows && st.rows[id].username == u {
      var id :| id in st.rows && st.rows[id].username == u;
      assert id in IdsWithUsername(st, u);
    }
  }

  /** Updating keeps the table consistent. */
  lemma UpdateKeepsConsistent(st: Store, id: int, request: StudentRequest)
    requires Consistent(st) && request.HasFields()
    ensures Consistent(Update(st, id, request).0)
  {
    var (st', r) := Update(st, id, request);
    var u := request.username.value;
    if r.Success? {
      forall k | k in st.rows && k != id ensures st.rows[k].username != u {
      }
    }
  }

  /** A student may keep its own username: re-submitting it is never a duplicate. */
  lemma UpdateKeepingUsernameSucceeds(st: Store, id: int, request: StudentRequest)
    requires Consistent(st) && request.HasFields()
    requires id in st.rows && request.username.value == st.rows[id].username
    ensures Update(st, id, request).1.Success?
  {
  }

  /**
   * What an update answers: NotFound for an unknown id, before any username check;
   * Duplicate exactly when another row holds the requested username; otherwise the row
   * takes the request's username and level and is returned under its id. A failed update
   * changes nothing.
   */
  lemma UpdateOutcome(st: Store, id: int, request: StudentRequest)
    requires request.HasFields()
    ensures var (st', r) := Update(st, id, request);
      var u := request.username.value;
      var l := request.level.value;
      && (id !in st.rows ==> r == Failure(NotFound(id)))
      && (id in st.rows ==>
            (r == Failure(Duplicate(u)) <==> exists other :: other in st.rows && other != id && st.rows[other].username == u))
      && (r.Failure? ==> st' == st)
      && (r.Success? <==> id in st.rows && !TakenByOther(st, id, u))
      && (r.Success? ==> r.value == StudentResponse(id, u, l) && st'.rows[id] == Row(u, l))
  {
  }

  /** An update changes the target row only: every other row and the id counter stay as they were. */
  lemma UpdateTouchesOnlyTarget(st: Store, id: int, request: StudentRequest)
    requires request.HasFields()
    ensures var st' := Update(st, id, request).0;
      st'.nextId == st.nextId && st'.rows.Keys == st.rows.Keys
      && forall other :: other in st.rows && other != id ==> st'.rows[other] == st.rows[other]
  {
  }

  /** Deleting removes exactly the requested row and keeps the table consistent; a second delete is NotFound. */
  lemma DeleteRemovesExactlyOne(st: Store, id: int)
    requires Consistent(st)
    ensures var (st', r) := Delete(st, id);
      && Consistent(st')
      && st'.rows.Keys == st.rows.Keys - {id}
      && (r.Success? <==> id in st.rows)
      && Delete(st', id).1 == Failure(NotFound(id))
      && Get(st', id) == Failure(NotFound(id))
  {
  }

  /** Deleting a freshly created student gives back the table's rows as they were before. */
  lemma CreateThenDeleteRestoresRows(st: Store, request: StudentRequest)
    requires Consistent(st) && request.HasFields()
    requires Create(st, request).1.Success?
    ensures Delete(Create(st, request).0, Create(st, request).1.value.id).0.rows == st.rows
  {
    var (st', r) := Create(st, request);
    assert st.nextId !in st.rows;
    assert st'.rows - {st.nextId} == st.rows;
  }

  /** The empty search string matches every row. */
  lemma EmptySearchFindsAll(st: Store)
    ensures SearchResults(st, "") == AllStudents(st)
  {
    SearchResultsWithoutWildcards(st, "");
    forall r | r in AllStudents(st) ensures r in IntendedSearchResults(st, "") {
      var lowered := Text.ToLower(r.username);
      assert Text.IsPrefix(Text.ToLower(""), lowered[0..]);
    }
  }

  /** Searching for a student's id (its decimal text) finds that student. */
  lemma SearchByIdFindsStudent(st: Store, id: int)
    requires id in st.rows
    ensures ResponseOf(st, id) in SearchResults(st, Text.IntToString(id))
  {
    var text := Text.IntToString(id);
    Text.IntToStringChars(id);
    SearchResultsWithoutWildcards(st, text);
    assert Text.IsPrefix(text, text[0..]);
  }

  /** Every student of a level is among all students, and the levels split the table. */
  lemma ByLevelPartitionsAll(st: Store, a: Level, b: Level)
    requires a != b
    ensures StudentsByLevel(st, a) <= AllStudents(st)
    ensures StudentsByLevel(st, a) * StudentsByLevel(st, b) == {}
  {
  }

  // ---------------------------------------------------------------- the service object

  /** The transactional service over the student repository. */
  class StudentServiceImpl {
    const studentRepository: StudentRepository

    ghost predicate Valid()
      reads this, studentRepository
    {
      studentRepository.Valid() && Consistent(studentRepository.Snapshot())
    }

    constructor (studentRepository: StudentRepository)
      requires studentRepository.Valid() && Consistent(studentRepository.Snapshot())
      ensures this.studentRepository == studentRepository && Valid()
    {
      this.studentRepository := studentRepository;
    }

    method GetAllStudents() returns (page: set<StudentResponse>)
      ensures page == AllStudents(studentRepository.Snapshot())
    {
      var found := studentRepository.FindAll();
      page := set id | id in found :: StudentResponse(id, found[id].username, found[id].level);
    }

    method GetStudentById(id: int) returns (r: Result<StudentResponse, StudentError>)
      ensures r == Get(studentRepository.Snapshot(), id)
    {
      var student := studentRepository.FindById(id);
      if student.None? {
        return Failure(NotFound(id));
      }
      r := Success(StudentMapper.ToResponse(student.value));
    }

    method CreateStudent(request: StudentRequest) returns (r: Result<StudentResponse, StudentError>)
      requires Valid() && request.HasFields()
      modifies studentRepository
      ensures Valid()
      ensures (studentRepository.Snapshot(), r) == Create(old(studentRepository.Snapshot()), request)
    {
      ghost var st := studentRepository.Snapshot();
      CreateKeepsConsistent(st, request);
      var existing := studentRepository.FindByUsername(request.username.value);
      if existing.Some? {
        return Failure(Duplicate(request.username.value));
      }
      var student := StudentMapper.ToEntity(request);
      var saved := studentRepository.Save(student);
      r := Success(StudentMapper.ToResponse(saved));
    }

    method UpdateStudent(id: int, request: StudentRequest) returns (r: Result<StudentResponse, StudentError>)
      requires Valid() && request.HasFields()
      modifies studentRepository
      ensures Valid()
      ensures (studentRepository.Snapshot(), r) == Update(old(studentRepository.Snapshot()), id, request)
    {
      ghost var st := studentRepository.Snapshot();
      UpdateKeepsConsistent(st, id, request);
      var student := studentRepository.FindById(id);
      if student.None? {
        return Failure(NotFound(id));
      }
      var username := request.username.value;
      var existing := studentRepository.FindByUsername(username);
      if existing.Some? && existing.value.id != Some(id) {
        ghost var other := existing.value.id.value;
        assert other in st.rows && other != id && st.rows[other].username == username;
        return Failure(Duplicate(username));
      }
      OtherHolderIsFound(st, id, username, existing);
      StudentMapper.UpdateEntity(student.value, request);
      var saved := studentRepository.Save(student.value);
      r := Success(StudentMapper.ToResponse(saved));
    }

    method DeleteStudent(id: int) returns (r: Result<(), StudentError>)
      requires Valid()
      modifies studentRepository
      ensures Valid()
      ensures (studentRepository.Snapshot(), r) == Delete(old(studentRepository.Snapshot()), id)
    {
      if !studentRepository.ExistsById(id) {
        return Failure(NotFound(id));
      }
      studentRepository.DeleteById(id);
      r := Success(());
    }

    method SearchStudents(search: string) returns (page: set<StudentResponse>)
      ensures page == SearchResults(studentRepository.Snapshot(), search)
    {
      var found := studentRepository.SearchByUsernameOrId(search);
      page := set id | id in found :: StudentResponse(id, found[id].username, found[id].level);
    }

    method GetStudentsByLevel(level: Level) returns (page: set<StudentResponse>)
      ensures page == StudentsByLevel(studentRepository.Snapshot(), level)
    {
      var found := studentRepository.FindByLevel(level);
      page := set id | id in found :: StudentResponse(id, found[id].username, found[id].level);
    }
  }

  /**
   * Under unique usernames, the one row `findByUsername` can return is the row that blocks an
   * update: if it is absent or is the target itself, no other row holds the username.
   */
  lemma OtherHolderIsFound(st: Store, id: int, username: string, existing: Option<Student>)
    requires st.UniqueUsernames()
    requires existing.None? <==> IdsWithUsername(st, username) == {}
    requires existing.Some? ==> existing.value.id.Some? && existing.value.id.value in IdsWithUsername(st, username)
    requires existing.Some? ==> existing.value.id == Some(id)
    ensures !TakenByOther(st, id, username)
  {
  }
}

=== FILE: text.dfy ===
/**
 * String helpers shared by the backend and the client: substring search, ASCII case
 * mapping, Java's blank test, JavaScript's `trim`, and decimal printing and parsing of
 * integers (Java `Long.toString`/`Long.parseLong`, JavaScript `Number.prototype.toString`).
 */
module Text {
  import opened Wrappers

  /** `p` is a prefix of `s`. */
  predicate IsPrefix(p: string, s: string) {
    |p| <= |s| && s[..|p|] == p
  }

  /** `sub` occurs in `s` as a contiguous run of characters. */
  predicate Contains(s: string, sub: string) {
    exists i | 0 <= i <= |s| :: IsPrefix(sub, s[i..])
  }

  // ---------------------------------------------------------------- case mapping

  /** Lower-case mapping of one character; only the ASCII letters are mapped. */
  function ToLowerChar(c: char): char {
    if 'A' <= c <= 'Z' then (c as int + 32) as char else c
  }

  /** Upper-case mapping of one character; only the ASCII letters are mapped. */
  function ToUpperChar(c: char): char {
    if 'a' <= c <= 'z' then (c as int - 32) as char else c
  }

  /** SQL `LOWER`, character by character. */
  function ToLower(s: string): (r: string)
    ensures |r| == |s|
    ensures forall i :: 0 <= i < |s| ==> r[i] == ToLowerChar(s[i])
  {
    seq(|s|, i requires 0 <= i < |s| => ToLowerChar(s[i]))
  }

  /** Java `String.equalsIgnoreCase`: same length and equal after upper-casing each character. */
  predicate EqualsIgnoreCase(a: string, b: string) {
    |a| == |b| && forall i :: 0 <= i < |a| ==> ToUpperChar(a[i]) == ToUpperChar(b[i])
  }

  // ---------------------------------------------------------------- blank and trim

  /**
   * Jakarta `@NotBlank` as its reference implementation checks it: a string is blank when
   * `String.trim()` leaves nothing, i.e. every character is at or below U+0020.
   */
  predicate IsBlank(s: string) {
    forall i :: 0 <= i < |s| ==> s[i] <= ' '
  }

  /**
   * Java `Character.isWhitespace`: the controls U+0009 to U+000D and U+001C to U+001F, and
   * the Unicode space, line and paragraph separators other than the three no-break spaces.
   */
  predicate IsJavaWhitespace(c: char) {
    || ('\t' <= c <= '\r') || ('\U{001C}' <= c <= ' ')
    || c == '\U{1680}' || ('\U{2000}' <= c <= '\U{2006}') || ('\U{2008}' <= c <= '\U{200A}')
    || c == '\U{2028}' || c == '\U{2029}' || c == '\U{205F}' || c == '\U{3000}'
  }

  /** Spring's `StringUtils.hasText`: some character is not Java whitespace. */
  predicate HasText(s: string) {
    exists i :: 0 <= i < |s| && !IsJavaWhitespace(s[i])
  }

  /** The characters JavaScript's `String.prototype.trim` removes: WhiteSpace and LineTerminator. */
  predicate IsJsWhitespace(c: char) {
    || c == '\t' || c == '\n' || c == '\U{000B}' || c == '\U{000C}' || c == '\r' || c == ' '
    || c == '\U{00A0}' || c == '\U{1680}' || ('\U{2000}' <= c <= '\U{200A}')
    || c == '\U{2028}' || c == '\U{2029}' || c == '\U{202F}' || c == '\U{205F}'
    || c == '\U{3000}' || c == '\U{FEFF}'
  }

  /** Drops the leading whitespace: what remains is a suffix that starts with a non-space. */
  function TrimStart(s: string): (r: string)
    ensures |r| <= |s| && r == s[|s| - |r|..]
    ensures forall i :: 0 <= i < |s| - |r| ==> IsJsWhitespace(s[i])
    ensures r != [] ==> !IsJsWhitespace(r[0])
    decreases |s|
  {
    if s != [] && IsJsWhitespace(s[0]) then TrimStart(s[1..]) else s
  }

  /** Drops the trailing whitespace: what remains is a prefix that ends with a non-space. */
  function TrimEnd(s: string): (r: string)
    ensures |r| <= |s| && r == s[..|r|]
    ensures forall i :: |r| <= i < |s| ==> IsJsWhitespace(s[i])
    ensures r != [] ==> !IsJsWhitespace(r[|r| - 1])
    decreases |s|
  {
    if s != [] && IsJsWhitespace(s[|s| - 1]) then TrimEnd(s[..|s| - 1]) else s
  }

  /**
   * JavaScript `String.prototype.trim`: the slice of `s` between its leading and its
   * trailing whitespace. It is empty exactly when `s` is all whitespace.
   */
  function Trim(s: string): (r: string)
    ensures r == [] <==> forall i :: 0 <= i < |s| ==> IsJsWhitespace(s[i])
    ensures r != [] ==> !IsJsWhitespace(r[0]) && !IsJsWhitespace(r[|r| - 1])
  {
    TrimEmptyIffBlank(s);
    var t := TrimStart(s);
    var r := TrimEnd(t);
    assert r != [] ==> r[0] == t[0];
    r
  }

  /** Trimming leaves nothing exactly when every character is whitespace. */
  lemma TrimEmptyIffBlank(s: string)
    ensures TrimEnd(TrimStart(s)) == [] <==> forall i :: 0 <= i < |s| ==> IsJsWhitespace(s[i])
  {
    var t := TrimStart(s);
    var r := TrimEnd(t);
    var k := |s| - |t|;
    if r == [] {
      assert t == [];
    } else {
      assert !IsJsWhitespace(s[k]) by { assert t[0] == s[k]; }
    }
  }

  /** What `Trim` keeps is a contiguous piece of its input. */
  lemma TrimIsSlice(s: string)
    ensures Contains(s, Trim(s))
  {
    var t := TrimStart(s);
    var r := TrimEnd(t);
    var k := |s| - |t|;
    assert IsPrefix(r, s[k..]);
  }

  /** Trimming twice is trimming once. */
  lemma TrimIdempotent(s: string)
    ensures Trim(Trim(s)) == Trim(s)
  {
    var r := Trim(s);
    if r != [] {
      assert TrimStart(r) == r;
      assert TrimEnd(r) == r;
    }
  }

  // ---------------------------------------------------------------- decimal integers

  predicate IsDigit(c: char) {
    '0' <= c <= '9'
  }

  predicate AllDigits(s: string) {
    forall i :: 0 <= i < |s| ==> IsDigit(s[i])
  }

  function DigitChar(d: nat): (c: char)
    requires d < 10
    ensures IsDigit(c)
  {
    ('0' as int + d) as char
  }

  function DigitValue(c: char): (d: nat)
    requires IsDigit(c)
    ensures d < 10 && DigitChar(d) == c
  {
    c as int - '0' as int
  }

  /** Decimal digits of `n`, most significant first, without leading zeros. */
  function NatToString(n: nat): (s: string)
    ensures s != [] && AllDigits(s)
    ensures |s| > 1 ==> s[0] != '0'
    decreases n
  {
    if n < 10 then [DigitChar(n)] else NatToString(n / 10) + [DigitChar(n % 10)]
  }

  /** Decimal text of an integer with a leading `-` for negatives (Java `Long.toString`, JavaScript `String(n)`). */
  function IntToString(i: int): (s: string)
    ensures s != []
    ensures s[0] == '-' || IsDigit(s[0])
    ensures i < 0 <==> s[0] == '-'
  {
    if i < 0 then "-" + NatToString(-i) else NatToString(i)
  }

  /** The decimal text of an integer holds only digits and the minus sign. */
  lemma IntToStringChars(i: int)
    ensures forall k :: 0 <= k < |IntToString(i)| ==> IntToString(i)[k] == '-' || IsDigit(IntToString(i)[k])
  {
    var s := IntToString(i);
    if i < 0 {
      forall k | 1 <= k < |s| ensures IsDigit(s[k]) {
        assert s[k] == NatToString(-i)[k - 1];
      }
    }
  }

  /** The value of a non-empty run of decimal digits. */
  function ParseDigits(s: string): nat
    requires s != [] && AllDigits(s)
    decreases |s|
  {
    if |s| == 1 then DigitValue(s[0])
    else 10 * ParseDigits(s[..|s| - 1]) + DigitValue(s[|s| - 1])
  }

  /**
   * Java `Long.parseLong` on ASCII digits: an optional sign followed by at least one digit;
   * anything else is a conversion failure (None).
   */
  function ParseInt(s: string): (r: Option<int>)
    ensures r.Some? ==> s != [] && (IsDigit(s[0]) || s[0] == '-' || s[0] == '+')
  {
    if |s| >= 2 && s[0] == '-' && AllDigits(s[1..]) then Some(-(ParseDigits(s[1..]) as int))
    else if |s| >= 2 && s[0] == '+' && AllDigits(s[1..]) then Some(ParseDigits(s[1..]) as int)
    else if s != [] && AllDigits(s) then Some(ParseDigits(s) as int)
    else None
  }

  /** Reading back the digits of `n` gives `n`. */
  lemma {:induction false} ParseNatToString(n: nat)
    ensures ParseDigits(NatToString(n)) == n
    decreases n
  {
    if n >= 10 {
      var s := NatToString(n);
      assert s[..|s| - 1] == NatToString(n / 10);
      ParseNatToString(n / 10);
    }
  }

  /** Round trip: parsing the printed form of any integer gives the integer back. */
  lemma IntRoundTrip(i: int)
    ensures ParseInt(IntToString(i)) == Some(i)
  {
    var s := IntToString(i);
    if i < 0 {
      assert s[1..] == NatToString(-i);
      ParseNatToString(-i);
    } else {
      ParseNatToString(i);
    }
  }

  /** Printing is injective: two integers with the same decimal text are equal. */
  lemma IntToStringInjective(i: int, j: int)
    requires IntToString(i) == IntToString(j)
    ensures i == j
  {
    IntRoundTrip(i);
    IntRoundTrip(j);
  }
}

=== FILE: wrappers.dfy ===
/** Option and Result: the absent values and the error returns of both the backend and the client. */
module Wrappers {

  /** A value that may be missing: Java's `Optional`/`null`, TypeScript's `undefined`/`null`. */
  datatype Option<+T> = None | Some(value: T) {
    function GetOr(default: T): T {
      match this
      case Some(v) => v
      case None => default
    }
  }

  /** The outcome of an operation that may throw: a value or the exception it raises. */
  datatype Result<+R, +E> = Success(value: R) | Failure(error: E)
}
